=== FILE: README.md ===
# JPackToolHandler bookkeeping, modelled in Dafny

This project models the core of `JPackToolHandler`, the jar-collecting
handler of the jpacktool Maven plugin. For every jar of a project's
dependency graph the handler decides whether the jar is an explicit module,
an automatic module or a plain class path jar. It may run the JDK `jdeps`
tool on the jar (`--print-module-deps`) and record what jdeps prints. The
records are:

- warnings and errors;
- every module name seen;
- the system, automatic and linked modules;
- four per-node maps from a dependency-graph node to the node's module lists.

Everything is pure, immutable data and functions:

- **State.** `HandlerState.State` is the handler's fields. `seq<string>`
  stands for each `List` and `map` for each `HashMap`.
- **Outcome.** Each handler call returns `Done(state)` or
  `Aborted(state, error)`. An aborted call still carries the fields as they
  stood at the throw, because the Java object keeps them.
- **Environment.** `Env` stands for the file system and the jdeps process:
  - `canon` is `getCanonicalPath`, which may fail;
  - `jdeps` maps an invocation to the output lines it produced, or to an
    execution failure.
- **Per-artifact inputs.** The manifest and `Files.isRegularFile` come with
  each `Artifact`.

| file | module | what it holds |
|---|---|---|
| `wrappers.dfy` | `Wrappers` | `Option`, `Result` |
| `lists.dfy` | `Lists` | `Insert` (the `if (!l.contains(x)) l.add(x)` idiom) and `InsertAll` |
| `java_strings.dfy` | `JavaStrings` | `startsWith`, `lastIndexOf`, `String.split` with its trailing-empty-field rule |
| `files.dfy` | `Files` | `File.getName`, `new File(parent, child)` |
| `handler_state.dfy` | `HandlerState` | fields, inputs, errors, the handler invariant `Valid` |
| `command.dfy` | `JdepsCommand` | `getColonSeparatedList`, `createJDepsCommandLine` |
| `naming.dfy` | `JdepsNaming` | the `.jdeps` output file name |
| `parser.dfy` | `JdepsParser` | the line loop of `generateJdeps` |
| `classifier.dfy` | `Classifier` | `generateJdeps`, `handleNonModJar`, `handleModJar`, a run over visits |
| `scenarios.dfy` | four `*Scenarios` modules | concrete worked examples |

The parse loop's contract, `JdepsParser.ParsedFrom`, is an independent
reference definition. Each list the loop touches ends up equal to
`InsertAll(old, entries)`, where the entries are:

- for `warnings`, the warning lines;
- for `errors`, the error lines;
- for `allModules` and the node's `deps`, the names of the data lines;
- for the other lists, the names of their bucket.

Every other field stays as it was. The handler invariant `Valid` says:

- no list holds a duplicate;
- `classPathElements[i]` is the class path directory's copy of `jarsOnClassPath[i]`;
- the linked system modules are known system modules;
- the four maps share their keys, and each key is a recorded node;
- each node's three buckets partition its dependencies, consistently with
  the global lists.

Every handler keeps `Valid`, and so does any sequence of visits
(`Classifier.RunValid`).

## Model

| member | source | states |
|---|---|---|
| `JavaStrings.LastIndexOf` | src/main/java/net/agilhard/maven/plugins/jpacktool/JPackToolHandler.java:172 | -1 exactly when the character is absent; otherwise an index holding it with none after it |
| `JavaStrings.Split` | src/main/java/net/agilhard/maven/plugins/jpacktool/JPackToolHandler.java:208 | `split(",")`: a line without a comma is its own single field (so `""` gives `[""]`); otherwise the fields between commas with the trailing empty ones dropped; no field holds a comma |
| `JavaStrings.JoinSplitAll` | src/main/java/net/agilhard/maven/plugins/jpacktool/JPackToolHandler.java:208 | splitting loses nothing: joining all the fields with the separator restores the line |
| `JavaStrings.SplitJoin` | src/main/java/net/agilhard/maven/plugins/jpacktool/JPackToolHandler.java:208 | round trip: separator-free fields whose last one is non-empty come back from `split` of their join |
| `Files.Name` | src/main/java/net/agilhard/maven/plugins/jpacktool/JPackToolHandler.java:171 | `getName` is the slash-free tail of the path, preceded by a `/` when shorter than the path |
| `Files.NameOfChild` | src/main/java/net/agilhard/maven/plugins/jpacktool/JPackToolHandler.java:296 | the class path copy `new File(dir, name)` has file name `name` |
| `Files.ChildInjective` | src/main/java/net/agilhard/maven/plugins/jpacktool/JPackToolHandler.java:296-301 | distinct jar names give distinct copies in one directory |
| `Files.Child` | src/main/java/net/agilhard/maven/plugins/jpacktool/JPackToolHandler.java:296 | `new File(dir, name)`: the path ends in `/` and the name, and what precedes that is the directory's path (nothing for the root) |
| `Files.OutputFile` | src/main/java/net/agilhard/maven/plugins/jpacktool/JPackToolHandler.java:175 | `new File(targetDir, name)`: a null directory leaves the bare name, relative to the working directory; any other puts the file directly below that directory |
| `Files.OutputFileName` | src/main/java/net/agilhard/maven/plugins/jpacktool/JPackToolHandler.java:171-175 | with or without a directory, the output file is called by the name it was given |
| `Lists.Insert` | src/main/java/net/agilhard/maven/plugins/jpacktool/JPackToolHandler.java:200-202 | insert-if-absent: the element is present afterwards, the old list is a prefix, at most one element is added, nothing changes when present, no duplicate appears |
| `Lists.InsertAll` | src/main/java/net/agilhard/maven/plugins/jpacktool/JPackToolHandler.java:208-214 | repeated insert-if-absent keeps the old list as a prefix and holds exactly the old and the new elements |
| `Lists.InsertAllNoDup` | src/main/java/net/agilhard/maven/plugins/jpacktool/JPackToolHandler.java:209-214 | insert-if-absent never introduces a duplicate |
| `Lists.InsertAllIdempotent` | src/main/java/net/agilhard/maven/plugins/jpacktool/JPackToolHandler.java:209-214 | inserting the same elements twice is inserting them once |
| `Lists.InsertAllAbsorbs` | src/main/java/net/agilhard/maven/plugins/jpacktool/JPackToolHandler.java:209-214 | inserting elements that are all present changes nothing |
| `Lists.InsertAllFresh` | src/main/java/net/agilhard/maven/plugins/jpacktool/JPackToolHandler.java:209-214 | distinct elements that are all absent are appended in order |
| `Lists.InsertAllConcat` | src/main/java/net/agilhard/maven/plugins/jpacktool/JPackToolHandler.java:198-214 | inserting `a` then `b` is inserting `a + b`: the loop over lines composes |
| `JdepsCommand.Resolve` | src/main/java/net/agilhard/maven/plugins/jpacktool/JPackToolHandler.java:111-115 | a canonical path, or the path error when it cannot be computed |
| `JdepsCommand.AppendPaths` | src/main/java/net/agilhard/maven/plugins/jpacktool/JPackToolHandler.java:107-116 | the builder loop succeeds exactly when every element has a canonical path, and fails only with the path error |
| `JdepsCommand.ColonSeparatedList` | src/main/java/net/agilhard/maven/plugins/jpacktool/JPackToolHandler.java:105-118 | succeeds exactly when every element has a canonical path; any failure is the path error |
| `JdepsCommand.ColonSeparatedListIsJoin` | src/main/java/net/agilhard/maven/plugins/jpacktool/JPackToolHandler.java:105-118 | with non-empty canonical paths, the result is their `:`-join in list order |
| `JdepsCommand.AppendPathsIsJoin` | src/main/java/net/agilhard/maven/plugins/jpacktool/JPackToolHandler.java:107-116 | the builder loop continues a `:`-join from whatever the builder holds |
| `JdepsCommand.ModuleDirsJoin` | src/main/java/net/agilhard/maven/plugins/jpacktool/JPackToolHandler.java:129-149 | the module path is the modules directory then the automatic directory, with `:` only when both are set |
| `JdepsCommand.ModulePathArgs` | src/main/java/net/agilhard/maven/plugins/jpacktool/JPackToolHandler.java:129-151 | `--module-path` appears exactly when a module directory is set, and fails exactly when a set directory has no canonical path |
| `JdepsCommand.CommandLine` | src/main/java/net/agilhard/maven/plugins/jpacktool/JPackToolHandler.java:120-164 | succeeds exactly when every path resolves; then `--class-path` leads exactly when the class path is non-empty, `--module-path` follows exactly when a directory is set, and the last three arguments are the two switches and the source path |
| `JdepsCommand.CommandLineMatchesReference` | src/main/java/net/agilhard/maven/plugins/jpacktool/JPackToolHandler.java:120-164 | the command equals the reference layout built with joins over the canonical paths |
| `JdepsNaming.JdepsFileName` | src/main/java/net/agilhard/maven/plugins/jpacktool/JPackToolHandler.java:171-173 | fails exactly for names without `-`; otherwise a stem plus `.jdeps` where the stem followed by `-` starts the name and no `-` follows it |
| `JdepsNaming.JdepsFileNameOfVersioned` | src/main/java/net/agilhard/maven/plugins/jpacktool/JPackToolHandler.java:171-173 | `stem-version` with a dash-free version gives `stem.jdeps`, whatever dashes the stem holds |
| `JdepsParser.BucketOf` | src/main/java/net/agilhard/maven/plugins/jpacktool/JPackToolHandler.java:215-234 | system module first, then a known automatic module, otherwise linked; each bucket characterised both ways |
| `JdepsParser.InBucket` | src/main/java/net/agilhard/maven/plugins/jpacktool/JPackToolHandler.java:215-234 | a name is among a bucket's names exactly when it is a parsed name of that bucket |
| `JdepsParser.InBucketPartition` | src/main/java/net/agilhard/maven/plugins/jpacktool/JPackToolHandler.java:215-234 | the three buckets are the names that are system modules, the automatic non-system ones, and all the rest |
| `JdepsParser.WarningLines` | src/main/java/net/agilhard/maven/plugins/jpacktool/JPackToolHandler.java:199-202 | holds exactly the lines starting with `Warning:` |
| `JdepsParser.ErrorLines` | src/main/java/net/agilhard/maven/plugins/jpacktool/JPackToolHandler.java:203-206 | holds exactly the non-warning lines starting with `Error:` |
| `JdepsParser.Names` | src/main/java/net/agilhard/maven/plugins/jpacktool/JPackToolHandler.java:198-208 | the names from the data lines are comma-free fields, and lines with no data line give none |
| `JdepsParser.NamesHas` | src/main/java/net/agilhard/maven/plugins/jpacktool/JPackToolHandler.java:207-208 | a name is parsed exactly when some data line holds it as a comma-separated field |
| `JdepsParser.AddDep` | src/main/java/net/agilhard/maven/plugins/jpacktool/JPackToolHandler.java:209-235 | one name goes into the node's and the global "all" lists and into exactly the lists of its bucket; no other field changes |
| `JdepsParser.AddDeps` | src/main/java/net/agilhard/maven/plugins/jpacktool/JPackToolHandler.java:208-237 | the names of a line, in order: each list gains the names of its kind, in order of first appearance |
| `JdepsParser.ParseLine` | src/main/java/net/agilhard/maven/plugins/jpacktool/JPackToolHandler.java:199-238 | one line is a warning, an error, or a list of names, and each list gains exactly that line's entries of its kind |
| `JdepsParser.ParseLines` | src/main/java/net/agilhard/maven/plugins/jpacktool/JPackToolHandler.java:196-242 | meets `ParsedFrom`: each touched list is its old contents followed by the new entries of its kind, and the system and automatic modules are never modified |
| `JdepsParser.ParseLinesRouting` | src/main/java/net/agilhard/maven/plugins/jpacktool/JPackToolHandler.java:198-214 | every warning line reaches `warnings`, every error line `errors`, every name of a data line the node's deps and `allModules` |
| `JdepsParser.ParseLinesRoutesNothingElse` | src/main/java/net/agilhard/maven/plugins/jpacktool/JPackToolHandler.java:198-214 | conversely, `warnings` gains only warning lines, `errors` only error lines, the "all" lists only parsed names |
| `JdepsParser.ParseLinesNoDup` | src/main/java/net/agilhard/maven/plugins/jpacktool/JPackToolHandler.java:198-234 | warnings, errors and the global module lists stay free of duplicates |
| `JdepsParser.ParseLinesNodeValid` | src/main/java/net/agilhard/maven/plugins/jpacktool/JPackToolHandler.java:184-234 | from fresh node lists, each name of the node is in exactly one of its three buckets, none holds a duplicate, and each agrees with the global lists |
| `JdepsParser.ParseLinesIdempotent` | src/main/java/net/agilhard/maven/plugins/jpacktool/JPackToolHandler.java:184-242 | parsing the same lines again from fresh node lists changes nothing |
| `JdepsParser.ParseLinesAbsorbed` | src/main/java/net/agilhard/maven/plugins/jpacktool/JPackToolHandler.java:196-242 | lines whose entries the state already holds leave every global list as it is; only the fresh node lists are filled |
| `HandlerState.Store` | src/main/java/net/agilhard/maven/plugins/jpacktool/JPackToolHandler.java:244-247 | storing a node's lists adds exactly that node to the keys of all four maps |
| `HandlerState.InitialValid` | src/main/java/net/agilhard/maven/plugins/jpacktool/JPackToolHandler.java:60-97 | a freshly constructed handler meets the invariant |
| `HandlerState.NodeValidGrows` | src/main/java/net/agilhard/maven/plugins/jpacktool/JPackToolHandler.java:184-247 | a node's lists stay valid while the global lists only grow |
| `Classifier.JdepsInvocation` | src/main/java/net/agilhard/maven/plugins/jpacktool/JPackToolHandler.java:169-175 | the command line is built first, then the output name: a path error exactly when the command fails, the dash error exactly when only the name fails; otherwise the given executable, arguments and output file |
| `Classifier.GenerateJdeps` | src/main/java/net/agilhard/maven/plugins/jpacktool/JPackToolHandler.java:166-248 | only appends and never touches the class path, node or automatic lists; the path error and the dash error are each characterised both ways; without output it leaves the state alone; with output, even one cut short by a read error, the result is `ParseAndStore` of the lines read |
| `Classifier.GenerateJdepsExits` | src/main/java/net/agilhard/maven/plugins/jpacktool/JPackToolHandler.java:176-241 | the other exits, each exactly when the runner answers so: an execution failure aborts with the execution error, a failed read aborts with the read error, and the call returns exactly when the whole output was read |
| `Classifier.RunAndParse` | src/main/java/net/agilhard/maven/plugins/jpacktool/JPackToolHandler.java:176-248 | an execution failure aborts before the maps are touched; any output is parsed and stored; it aborts with the read error exactly when the read failed, and returns exactly when it did not |
| `Classifier.ParseAndStore` | src/main/java/net/agilhard/maven/plugins/jpacktool/JPackToolHandler.java:184-247 | the node is in all four maps and every other entry is unchanged; the node's lists are the fresh buckets of the printed names, they are valid, and the global lists only grow |
| `Classifier.GenerateJdepsIdempotent` | src/main/java/net/agilhard/maven/plugins/jpacktool/JPackToolHandler.java:166-248 | running jdeps again for the same node, against the state any first run left (a return, an early error, an execution failure or a read failure), gives the same outcome |
| `Classifier.ParseAndStoreIdempotent` | src/main/java/net/agilhard/maven/plugins/jpacktool/JPackToolHandler.java:184-247 | parsing and storing the same lines for the same node twice gives the state of the first time |
| `Classifier.ParseAndStoreAbsorbs` | src/main/java/net/agilhard/maven/plugins/jpacktool/JPackToolHandler.java:184-247 | after a parse and store the state holds every entry the parse added, and the node's entries are the buckets of its names |
| `Classifier.ParseAndStoreAbsorbed` | src/main/java/net/agilhard/maven/plugins/jpacktool/JPackToolHandler.java:184-247 | parsing and storing lines whose entries the state already holds, for a node whose entries already hold their buckets, changes nothing |
| `Classifier.ParseKeepsLinkedSystem` | src/main/java/net/agilhard/maven/plugins/jpacktool/JPackToolHandler.java:212-218 | linked system modules stay system modules that are known modules |
| `Classifier.GenerateJdepsValid` | src/main/java/net/agilhard/maven/plugins/jpacktool/JPackToolHandler.java:166-248 | for a recorded node, `generateJdeps` keeps the invariant whether it returns or throws |
| `Classifier.ParseAndStoreValid` | src/main/java/net/agilhard/maven/plugins/jpacktool/JPackToolHandler.java:184-247 | parsing and storing a recorded node's output keeps the invariant |
| `Classifier.NonModKind` | src/main/java/net/agilhard/maven/plugins/jpacktool/JPackToolHandler.java:255-278 | automatic exactly when the descriptor says automatic and the manifest has `Automatic-Module-Name`; fails, with the manifest error, exactly when such a jar's manifest cannot be read |
| `Classifier.RecordNode` | src/main/java/net/agilhard/maven/plugins/jpacktool/JPackToolHandler.java:259-261 | insert-if-absent: a node already recorded leaves the state as it was; otherwise `nodeStrings` gains exactly the node at its end; nothing else changes |
| `Classifier.RecordAutomatic` | src/main/java/net/agilhard/maven/plugins/jpacktool/JPackToolHandler.java:306-311 | insert-if-absent: a name already registered leaves the state as it was; otherwise `automaticModules` gains exactly the name at its end; nothing else changes |
| `Classifier.RecordLinked` | src/main/java/net/agilhard/maven/plugins/jpacktool/JPackToolHandler.java:333-337 | insert-if-absent: a name already linked leaves the state as it was; otherwise `linkedModules` gains exactly the name at its end; nothing else changes |
| `Classifier.AddToClassPath` | src/main/java/net/agilhard/maven/plugins/jpacktool/JPackToolHandler.java:296-301 | a copy already on the class path leaves the state as it was; otherwise the class path gains exactly the copy and `jarsOnClassPath` exactly the jar's name, both at the end; nothing else changes |
| `Classifier.JdepsIf` | src/main/java/net/agilhard/maven/plugins/jpacktool/JPackToolHandler.java:287-295 | with its switch off, nothing happens; otherwise only appends, leaving the class path, node and automatic lists alone |
| `Classifier.PlaceOnClassPath` | src/main/java/net/agilhard/maven/plugins/jpacktool/JPackToolHandler.java:292-302 | after jdeps returns, the copy is on the class path, which gains nothing else; the two class path lists grow together; an abort leaves both as they were |
| `Classifier.PlaceJar` | src/main/java/net/agilhard/maven/plugins/jpacktool/JPackToolHandler.java:280-304 | only a regular class path jar with the directory set touches the class path, and it ends up there on return; an abort leaves the class path lists as they were |
| `Classifier.HandleNonModJar` | src/main/java/net/agilhard/maven/plugins/jpacktool/JPackToolHandler.java:250-316 | records the node (`nodeStrings` is the old list with the node inserted if absent); an unreadable manifest aborts with only the node recorded; the class path changes only for class path jars, in step, by the jar's copy, and never on an abort; `automaticModules` gains exactly the module name of an automatic jar on return |
| `Classifier.HandleModJar` | src/main/java/net/agilhard/maven/plugins/jpacktool/JPackToolHandler.java:318-341 | records the node (`nodeStrings` is the old list with the node inserted if absent), never touches the class path or automatic lists, and on return the module name is linked; with jdeps off the call returns, the node list gains the node, the linked modules gain exactly the module name (insert-if-absent), and nothing else changes |
| `Classifier.PlaceAndRegister` | src/main/java/net/agilhard/maven/plugins/jpacktool/JPackToolHandler.java:280-311 | once the kind is known: the node list is untouched, the class path changes only for class path jars and never on an abort, and `automaticModules` gains exactly an automatic jar's module name on return |
| `Classifier.PlaceJarPassesAbort` | src/main/java/net/agilhard/maven/plugins/jpacktool/JPackToolHandler.java:285-295 | placing a jar that runs jdeps fails exactly when `generateJdeps` into the kind's directory fails, with the same error and state |
| `Classifier.HandleNonModJarPassesAbort` | src/main/java/net/agilhard/maven/plugins/jpacktool/JPackToolHandler.java:250-316 | when jdeps runs, the visit throws exactly when `generateJdeps` does, passing on its error (path, name, execution or read) and state unchanged |
| `Classifier.HandleModJarPassesAbort` | src/main/java/net/agilhard/maven/plugins/jpacktool/JPackToolHandler.java:329-331 | with module jdeps on, the visit throws exactly when `generateJdeps` into the modules directory does, passing on its error and state unchanged |
| `Classifier.HandleNonModJarWithoutJdeps` | src/main/java/net/agilhard/maven/plugins/jpacktool/JPackToolHandler.java:280-304 | when the jar's kind has no output directory or its switch is off, or the file is not regular, the call returns and changes only the node list, the class path lists and the automatic modules: warnings, errors, the module lists and the per-node maps stay as they were |
| `Classifier.HandleNonModJarWithJdeps` | src/main/java/net/agilhard/maven/plugins/jpacktool/JPackToolHandler.java:280-304 | when jdeps runs and the call returns, the node's entries are the buckets of what jdeps printed into the kind's directory, run against the class path from before the visit, so without the jar's own copy |
| `Classifier.HandleModJarWithJdeps` | src/main/java/net/agilhard/maven/plugins/jpacktool/JPackToolHandler.java:329-331 | with module jdeps on, a returning call leaves the node's entries holding the buckets of what jdeps printed into the modules directory |
| `Classifier.AutomaticJarParsedBeforeRegistered` | src/main/java/net/agilhard/maven/plugins/jpacktool/JPackToolHandler.java:285-311 | an automatic jar's own output is bucketed against the automatic modules known before the visit; its name is registered afterwards |
| `Classifier.HandleNonModJarRevisit` | src/main/java/net/agilhard/maven/plugins/jpacktool/JPackToolHandler.java:250-316 | with jdeps generation off, a second visit of the same jar after a returning one changes nothing |
| `Classifier.HandleModJarRevisit` | src/main/java/net/agilhard/maven/plugins/jpacktool/JPackToolHandler.java:318-341 | a second visit of the same modular jar after a returning one changes nothing, with module jdeps on or off |
| `Classifier.AddToClassPathValid` | src/main/java/net/agilhard/maven/plugins/jpacktool/JPackToolHandler.java:296-301 | the class path lists stay duplicate-free and matched index by index |
| `Classifier.HandleNonModJarValid` | src/main/java/net/agilhard/maven/plugins/jpacktool/JPackToolHandler.java:250-316 | `handleNonModJar` keeps the invariant, whether it returns or throws |
| `Classifier.HandleModJarValid` | src/main/java/net/agilhard/maven/plugins/jpacktool/JPackToolHandler.java:318-341 | `handleModJar` keeps the invariant, whether it returns or throws |
| `Classifier.Run` | src/main/java/net/agilhard/maven/plugins/jpacktool/JPackToolHandler.java:250-341 | a sequence of visits, stopping at the first exception, only appends to every list |
| `Classifier.RunStopsAtFirstAbort` | src/main/java/net/agilhard/maven/plugins/jpacktool/JPackToolHandler.java:250-341 | a run throws exactly when some visit throws after all earlier visits returned, and then it ends with that visit's exception and state, as the handlers let every exception through |
| `Classifier.RunValid` | src/main/java/net/agilhard/maven/plugins/jpacktool/JPackToolHandler.java:250-341 | the invariant holds after any sequence of visits |
| `NamingScenarios.VersionedNameExample` | src/main/java/net/agilhard/maven/plugins/jpacktool/JPackToolHandler.java:171-173 | `foo-core-2.1.3.jar` gives `foo-core.jdeps` |
| `NamingScenarios.DashlessNameExample` | src/main/java/net/agilhard/maven/plugins/jpacktool/JPackToolHandler.java:172-173 | `guava.jar` has no output name |
| `CommandScenarios.CommandExample` | src/main/java/net/agilhard/maven/plugins/jpacktool/JPackToolHandler.java:120-164 | two class path jars and both module directories give the full seven-argument command |
| `CommandScenarios.CommandFailsOnBadPath` | src/main/java/net/agilhard/maven/plugins/jpacktool/JPackToolHandler.java:111-115 | one unresolvable class path element fails the command |
| `ParseScenarios.SampleLines` | src/main/java/net/agilhard/maven/plugins/jpacktool/JPackToolHandler.java:199-208 | `Warning: split package` is a warning line, and `java.base,app` is a data line naming `java.base` and `app` |
| `ParseScenarios.ParseSample` | src/main/java/net/agilhard/maven/plugins/jpacktool/JPackToolHandler.java:196-242 | a warning, a data line and the same warning again: the warning kept once, the system module and the other module each in its own lists |
| `ParseScenarios.BucketDependsOnOrder` | src/main/java/net/agilhard/maven/plugins/jpacktool/JPackToolHandler.java:223-234 | the same name is a linked module before its jar is registered as automatic and an automatic dependency after |
| `HandlerScenarios.ManifestDowngrade` | src/main/java/net/agilhard/maven/plugins/jpacktool/JPackToolHandler.java:263-271 | a jar the descriptor calls automatic, with no `Automatic-Module-Name` or no manifest at all, is a class path jar |

## Where the code differs from what its names suggest

The model follows the code in each case.

- **The manifest check only ever downgrades.** The manifest is read only
  when the descriptor already says the jar is automatic. It can then only
  take automatic status away (`:263-271`); it never makes a jar automatic.
- **`allModules` does not hold every known module name.** It holds only the
  names jdeps printed. `handleModJar` and the automatic registration add
  names to `linkedModules` and `automaticModules` directly. `Valid`
  therefore does not require containment.
- **Map entries exist only for nodes whose jdeps output was parsed.** A
  recorded node with jdeps switched off, or not a regular file, has no map
  entries. `Valid` states `keys <= nodeStrings`, not equality.
- **Failing to create or close the `.jdeps` file is only logged**
  (`:178-179`). What follows depends on the file system. A missing file
  makes the read fail, and that read failure is the exception. A stale
  file left by an earlier build is parsed without any exception. Because
  the runner answer `Env.jdeps` is unconstrained, the model covers both
  cases.

## Left out

- Running jdeps (`executeCommand`, `:343-345`) is the parameter
  `Env.jdeps`. It yields either an execution failure or the lines that were
  read back, together with whether the read failed partway.
- Creating and reading the output file are folded into that runner result.
  A file that could not be created or closed shows up as whatever the read
  then yields: no lines and a read failure, or a stale file's lines.
- `getCanonicalPath` is the partial function `Env.canon`, and the two
  exceptions it can raise are not distinguished.
- Reading the manifest through `JarFile` is the input `ManifestRead`, and
  `Files.isRegularFile` is the input `Artifact.regularFile`.
- `super.handleNonModJar` and `super.handleModJar` (`:314`, `:339`) belong
  to `CollectJarsHandler`, which copies jars and is not part of this model.
- The dependency-graph traversal and `toNodeString` are not modelled. Node
  identity is an opaque string, and a traversal is a sequence of `Visit`s.
- The constructor's Maven wiring, the logging and the getters (`:347-401`)
  carry no logic. `HandlerState.Initial` stands for a freshly constructed
  handler.
- The exception classes are not distinguished. `MojoFailureException`,
  `MojoExecutionException` and the `StringIndexOutOfBoundsException` of a
  dash-less name become the kinds of `HandlerState.Error`.
- Classifier.HandleModJar: requires a descriptor. The Java dereferences
  `entry.getValue()` unconditionally, and its caller dispatches only jars
  that have one.
- Classifier.HandleNonModJarRevisit: covers only runs with jdeps generation
  off. With generation on, a class path jar's second jdeps run sees a class
  path that now holds the jar's own copy. Its output therefore need not be
  the first run's. For an automatic jar the class path does not change,
  but the second parse buckets against automatic modules that now hold the
  jar's own name, so a printed name can move from the linked to the
  automatic bucket.

=== FILE: classifier.dfy ===
/** `generateJdeps`, `handleNonModJar` and `handleModJar`: classifying each
    jar of the dependency graph and recording what jdeps reports for it. */
module Classifier {
  import opened Wrappers
  import opened Lists
  import opened Files
  import opened HandlerState
  import opened JdepsCommand
  import opened JdepsNaming
  import opened JdepsParser

  /** The jdeps invocation for `source`, its output going to `targetDir`:
      the command line first, then the output file name. */
  function JdepsInvocation(cfg: Config, canon: File -> Option<string>, classPath: seq<File>, source: File, targetDir: Option<File>): (r: Result<Invocation, Error>)
    ensures r.Failure? && r.error == PathError <==> CommandLine(cfg, canon, classPath, source).Failure?
    ensures r.Failure? && r.error == NameWithoutDash <==> CommandLine(cfg, canon, classPath, source).Success? && '-' !in Name(source)
    ensures r.Failure? ==> r.error == PathError || r.error == NameWithoutDash
    ensures r.Success? ==> r.value.executable == cfg.jdepsExecutable
    ensures r.Success? ==> r.value.args == CommandLine(cfg, canon, classPath, source).value
    ensures r.Success? ==> r.value.output == OutputFile(targetDir, JdepsFileName(Name(source)).value)
  {
    var args :- CommandLine(cfg, canon, classPath, source);
    var name :- JdepsFileName(Name(source));
    Success(Invocation(cfg.jdepsExecutable, args, OutputFile(targetDir, name)))
  }

  /** Whether jdeps ran and its output was (at least partly) parsed: then
      the four maps were written for the node. */
  predicate Parsed(r: Outcome)
  {
    r.Done? || r.error == ReadError
  }

  /** What running jdeps for `source` against `classPath` yields, when the
      invocation could be built. */
  function JdepsRunFor(cfg: Config, env: Env, classPath: seq<File>, source: File, targetDir: Option<File>): Option<JdepsRun>
  {
    match JdepsInvocation(cfg, env.canon, classPath, source, targetDir)
    case Failure(_) => None
    case Success(inv) => Some(env.jdeps(inv))
  }

  /** The lines jdeps printed for `source`, when it ran. */
  function JdepsLines(cfg: Config, env: Env, classPath: seq<File>, source: File, targetDir: Option<File>): Option<seq<string>>
  {
    match JdepsInvocation(cfg, env.canon, classPath, source, targetDir)
    case Failure(_) => None
    case Success(inv) =>
      match env.jdeps(inv)
      case ExecFailed => None
      case Output(lines, _) => Some(lines)
  }

  /** `generateJdeps(node, source, targetDir)`. The lists put into the four
      maps before reading are the very lists the loop fills, so at every
      exit after that point, a read failure included, the maps hold the
      lists as filled so far. */
  function GenerateJdeps(cfg: Config, env: Env, st: State, node: string, source: File, targetDir: Option<File>): (r: Outcome)
    ensures AppendOnly(st, r.st)
    ensures r.st.classPathElements == st.classPathElements && r.st.jarsOnClassPath == st.jarsOnClassPath
    ensures r.st.nodeStrings == st.nodeStrings && r.st.automaticModules == st.automaticModules
    ensures r.Aborted? && r.error == PathError <==> CommandLine(cfg, env.canon, st.classPathElements, source).Failure?
    ensures r.Aborted? && r.error == NameWithoutDash
            <==> CommandLine(cfg, env.canon, st.classPathElements, source).Success? && '-' !in Name(source)
    ensures !Parsed(r) ==> r.st == st
    ensures Parsed(r) <==> JdepsLines(cfg, env, st.classPathElements, source, targetDir).Some?
    ensures Parsed(r) ==> r.st == ParseAndStore(st, node, JdepsLines(cfg, env, st.classPathElements, source, targetDir).value)
  {
    match JdepsInvocation(cfg, env.canon, st.classPathElements, source, targetDir)
    case Failure(e) =>
      AppendOnlyRefl(st);
      Aborted(st, e)
    case Success(inv) => RunAndParse(env, st, node, inv)
  }

  /** The remaining exits of `generateJdeps`: an execution failure, a
      failed read of the output, and a return, each exactly when the runner
      answers so. */
  lemma {:induction false} GenerateJdepsExits(cfg: Config, env: Env, st: State, node: string, source: File, targetDir: Option<File>)
    ensures var r := GenerateJdeps(cfg, env, st, node, source, targetDir);
            var run := JdepsRunFor(cfg, env, st.classPathElements, source, targetDir);
            && (r.Aborted? && r.error == ExecError <==> run == Some(ExecFailed))
            && (r.Aborted? && r.error == ReadError <==> run.Some? && run.value.Output? && run.value.readFailed)
            && (r.Done? <==> run.Some? && run.value.Output? && !run.value.readFailed)
  {
    match JdepsInvocation(cfg, env.canon, st.classPathElements, source, targetDir)
    case Failure(e) =>
    case Success(inv) =>
      assert GenerateJdeps(cfg, env, st, node, source, targetDir) == RunAndParse(env, st, node, inv);
  }

  /** Running jdeps once the invocation is built: an execution failure
      leaves the handler as it was, otherwise the output is parsed and the
      node's lists stored, a read failure still throwing afterwards. */
  function RunAndParse(env: Env, st: State, node: string, inv: Invocation): (r: Outcome)
    ensures AppendOnly(st, r.st)
    ensures r.st.classPathElements == st.classPathElements && r.st.jarsOnClassPath == st.jarsOnClassPath
    ensures r.st.nodeStrings == st.nodeStrings && r.st.automaticModules == st.automaticModules
    ensures r.Aborted? ==> r.error == ExecError || r.error == ReadError
    ensures r.Aborted? && r.error == ExecError <==> env.jdeps(inv).ExecFailed?
    ensures r.Aborted? && r.error == ReadError <==> env.jdeps(inv).Output? && env.jdeps(inv).readFailed
    ensures r.Done? <==> env.jdeps(inv).Output? && !env.jdeps(inv).readFailed
    ensures Parsed(r) <==> env.jdeps(inv).Output?
    ensures !Parsed(r) ==> r.st == st
    ensures Parsed(r) ==> r.st == ParseAndStore(st, node, env.jdeps(inv).lines)
  {
    match env.jdeps(inv)
    case ExecFailed =>
      AppendOnlyRefl(st);
      Aborted(st, ExecError)
    case Output(lines, readFailed) =>
      var st' := ParseAndStore(st, node, lines);
      if readFailed then Aborted(st', ReadError) else Done(st')
  }

  /** The parse loop over `lines` for `node`, with the four map entries of
      `node` holding the node lists the loop filled: the global lists only
      grow, the other nodes' entries stay, and the node's lists are the
      fresh buckets of the names jdeps printed. */
  function ParseAndStore(st: State, node: string, lines: seq<string>): (r: State)
    ensures AppendOnly(st, r)
    ensures r.classPathElements == st.classPathElements && r.jarsOnClassPath == st.jarsOnClassPath
    ensures r.nodeStrings == st.nodeStrings && r.automaticModules == st.automaticModules
    ensures node in r.allModulesMap && node in r.automaticModulesMap
    ensures node in r.linkedModulesMap && node in r.linkedSystemModulesMap
    ensures r.allModulesMap == st.allModulesMap[node := r.allModulesMap[node]]
    ensures r.automaticModulesMap == st.automaticModulesMap[node := r.automaticModulesMap[node]]
    ensures r.linkedModulesMap == st.linkedModulesMap[node := r.linkedModulesMap[node]]
    ensures r.linkedSystemModulesMap == st.linkedSystemModulesMap[node := r.linkedSystemModulesMap[node]]
    ensures NodeLists(r, node) == FreshBuckets(Names(lines), st.systemModules, st.automaticModules)
    ensures NodeValid(r, NodeLists(r, node))
  {
    var p := ParseLines(Acc(st, NoBuckets), lines);
    StoredParse(st, node, p, lines);
    Store(p.st, node, p.b)
  }

  lemma {:induction false} StoredParse(st: State, node: string, p: Acc, lines: seq<string>)
    requires ParsedFrom(Acc(st, NoBuckets), p, lines)
    ensures AppendOnly(st, Store(p.st, node, p.b))
    ensures NodeLists(Store(p.st, node, p.b), node) == p.b
    ensures p.b == FreshBuckets(Names(lines), st.systemModules, st.automaticModules)
    ensures NodeValid(p.st, p.b)
  {
    ParsedAppendOnly(st, p, lines);
    FreshNodeValid(st, p, lines);
  }

  /** Parsing only appends to the lists it touches. */
  lemma {:induction false} ParsedAppendOnly(st: State, p: Acc, lines: seq<string>)
    requires ParsedFrom(Acc(st, NoBuckets), p, lines)
    ensures AppendOnly(st, p.st)
  {
    AppendOnlyRefl(st);
  }

  /** Running jdeps again for the same node, against the state it left,
      gives the same outcome on every exit: the class path is unchanged, so
      the runner answers the same invocation the same way. */
  lemma {:induction false} GenerateJdepsIdempotent(cfg: Config, env: Env, st: State, node: string, source: File, targetDir: Option<File>)
    ensures var r := GenerateJdeps(cfg, env, st, node, source, targetDir);
            GenerateJdeps(cfg, env, r.st, node, source, targetDir) == r
  {
    var r := GenerateJdeps(cfg, env, st, node, source, targetDir);
    match JdepsInvocation(cfg, env.canon, st.classPathElements, source, targetDir)
    case Failure(e) =>
    case Success(inv) =>
      assert JdepsInvocation(cfg, env.canon, r.st.classPathElements, source, targetDir) == Success(inv);
      if env.jdeps(inv).Output? {
        ParseAndStoreIdempotent(st, node, env.jdeps(inv).lines);
      }
  }

  /** Parsing the same lines for the same node a second time gives back the
      state the first parse left. */
  lemma {:induction false} ParseAndStoreIdempotent(st: State, node: string, lines: seq<string>)
    ensures var stored := ParseAndStore(st, node, lines);
            ParseAndStore(stored, node, lines) == stored
  {
    ParseAndStoreAbsorbs(st, node, lines);
    ParseAndStoreAbsorbed(ParseAndStore(st, node, lines), node, lines);
  }

  /** After parsing and storing, the state holds everything the parse
      added, and the node's entries are the buckets of its names. */
  lemma {:induction false} ParseAndStoreAbsorbs(st: State, node: string, lines: seq<string>)
    ensures var stored := ParseAndStore(st, node, lines);
            Absorbs(stored, lines) && StoredFor(stored, node, lines, stored.systemModules, stored.automaticModules)
  {
    var p := ParseLines(Acc(st, NoBuckets), lines);
    ParsedAbsorbs(Acc(st, NoBuckets), p, lines);
  }

  /** Parsing and storing lines the state has already absorbed, for a node
      whose entries already hold their buckets, changes nothing. */
  lemma {:induction false} ParseAndStoreAbsorbed(st: State, node: string, lines: seq<string>)
    requires Absorbs(st, lines) && StoredFor(st, node, lines, st.systemModules, st.automaticModules)
    ensures ParseAndStore(st, node, lines) == st
  {
    var p := ParseLines(Acc(st, NoBuckets), lines);
    ParseLinesAbsorbed(st, lines);
    assert ParseAndStore(st, node, lines) == Store(p.st, node, p.b);
    StoreSame(st, node);
  }

  /** How a jar without an explicit module descriptor is treated. */
  datatype JarKind = AutomaticJar | ClassPathJar

  /** The descriptor must call the jar automatic, and then the manifest is
      read: it keeps the jar automatic only when it has an
      `Automatic-Module-Name`, so it can only take automatic status away. */
  function NonModKind(a: Artifact): (r: Result<JarKind, Error>)
    ensures r == Success(AutomaticJar)
            <==> a.descriptor.Some? && a.descriptor.value.automatic && a.manifest == Manifest(true)
    ensures r.Failure? <==> a.descriptor.Some? && a.descriptor.value.automatic && a.manifest == ManifestUnreadable
    ensures r.Failure? ==> r.error == ManifestError
  {
    var descriptorSaysAutomatic := a.descriptor.Some? && a.descriptor.value.automatic;
    if !descriptorSaysAutomatic then Success(ClassPathJar)
    else
      match a.manifest
      case ManifestUnreadable => Failure(ManifestError)
      case NoManifest => Success(ClassPathJar)
      case Manifest(hasName) => Success(if hasName then AutomaticJar else ClassPathJar)
  }

  /** `nodeStrings` gains the node unless it holds it already. */
  function RecordNode(st: State, node: string): (r: State)
    ensures r == st.(nodeStrings := r.nodeStrings)
    ensures AppendOnly(st, r)
    ensures node in r.nodeStrings
    ensures Elems(r.nodeStrings) == Elems(st.nodeStrings) + {node}
    ensures node in st.nodeStrings ==> r == st
    ensures node !in st.nodeStrings ==> r.nodeStrings == st.nodeStrings + [node]
  {
    AppendOnlyRefl(st);
    st.(nodeStrings := Insert(st.nodeStrings, node))
  }

  /** `automaticModules` gains the module name unless it holds it already. */
  function RecordAutomatic(st: State, name: string): (r: State)
    ensures r == st.(automaticModules := r.automaticModules)
    ensures AppendOnly(st, r)
    ensures Elems(r.automaticModules) == Elems(st.automaticModules) + {name}
    ensures name in st.automaticModules ==> r == st
    ensures name !in st.automaticModules ==> r.automaticModules == st.automaticModules + [name]
  {
    AppendOnlyRefl(st);
    st.(automaticModules := Insert(st.automaticModules, name))
  }

  /** `linkedModules` gains the module name unless it holds it already. */
  function RecordLinked(st: State, name: string): (r: State)
    ensures r == st.(linkedModules := r.linkedModules)
    ensures AppendOnly(st, r)
    ensures name in r.linkedModules
    ensures Elems(r.linkedModules) == Elems(st.linkedModules) + {name}
    ensures name in st.linkedModules ==> r == st
    ensures name !in st.linkedModules ==> r.linkedModules == st.linkedModules + [name]
  {
    AppendOnlyRefl(st);
    st.(linkedModules := Insert(st.linkedModules, name))
  }

  /** The copy of the jar in the class path directory, recorded unless it is
      there already; its file name is recorded exactly with it. */
  function AddToClassPath(st: State, dir: File, jar: File): (r: State)
    ensures r == st.(classPathElements := r.classPathElements, jarsOnClassPath := r.jarsOnClassPath)
    ensures AppendOnly(st, r)
    ensures Child(dir, Name(jar)) in r.classPathElements
    ensures Elems(r.classPathElements) == Elems(st.classPathElements) + {Child(dir, Name(jar))}
    ensures |r.jarsOnClassPath| - |st.jarsOnClassPath| == |r.classPathElements| - |st.classPathElements| <= 1
    ensures |r.jarsOnClassPath| > |st.jarsOnClassPath| ==> r.jarsOnClassPath[|r.jarsOnClassPath| - 1] == Name(jar)
    ensures Child(dir, Name(jar)) in st.classPathElements ==> r == st
    ensures Child(dir, Name(jar)) !in st.classPathElements ==>
              && r.classPathElements == st.classPathElements + [Child(dir, Name(jar))]
              && r.jarsOnClassPath == st.jarsOnClassPath + [Name(jar)]
  {
    AppendOnlyRefl(st);
    var target := Child(dir, Name(jar));
    if target in st.classPathElements then st
    else
      var r := st.(classPathElements := st.classPathElements + [target],
                   jarsOnClassPath := st.jarsOnClassPath + [Name(jar)]);
      assert IsPrefix(st.classPathElements, r.classPathElements);
      assert IsPrefix(st.jarsOnClassPath, r.jarsOnClassPath);
      r
  }

  /** `r` aborts exactly when the `generateJdeps` outcome `g` does, and then
      with `g`'s error and state: the handler lets the exception through. */
  predicate PassesAbort(r: Outcome, g: Outcome)
  {
    (r.Aborted? <==> g.Aborted?) && (r.Aborted? ==> r == g)
  }

  /** Whether a jar of this kind goes onto the class path. */
  predicate GoesOnClassPath(cfg: Config, a: Artifact, kind: JarKind)
  {
    kind == ClassPathJar && a.regularFile && cfg.classPathDir.Some?
  }

  /** `generateJdeps` when its switch is on; nothing otherwise. */
  function JdepsIf(enabled: bool, cfg: Config, env: Env, st: State, node: string, source: File, targetDir: Option<File>): (r: Outcome)
    ensures AppendOnly(st, r.st)
    ensures r.st.classPathElements == st.classPathElements && r.st.jarsOnClassPath == st.jarsOnClassPath
    ensures r.st.nodeStrings == st.nodeStrings && r.st.automaticModules == st.automaticModules
    ensures !enabled ==> r == Done(st)
  {
    AppendOnlyRefl(st);
    if enabled then GenerateJdeps(cfg, env, st, node, source, targetDir) else Done(st)
  }

  /** The class path branch of `handleNonModJar`: jdeps output to the class
      path directory, then the jar's copy there goes on the class path. */
  function PlaceOnClassPath(cfg: Config, env: Env, st: State, a: Artifact, dir: File): (r: Outcome)
    requires cfg.classPathDir == Some(dir)
    ensures AppendOnly(st, r.st)
    ensures r.st.nodeStrings == st.nodeStrings && r.st.automaticModules == st.automaticModules
    ensures r.Done? ==> Child(dir, Name(a.file)) in r.st.classPathElements
    ensures r.Aborted? ==> r.st.classPathElements == st.classPathElements && r.st.jarsOnClassPath == st.jarsOnClassPath
    ensures Elems(r.st.classPathElements) <= Elems(st.classPathElements) + {Child(dir, Name(a.file))}
    ensures |r.st.jarsOnClassPath| - |st.jarsOnClassPath| == |r.st.classPathElements| - |st.classPathElements| <= 1
    ensures !cfg.generateClassPathJdeps ==> r.Done?
  {
    var r1 := JdepsIf(cfg.generateClassPathJdeps, cfg, env, st, a.node, a.file, cfg.classPathDir);
    if r1.Aborted? then r1
    else
      var st2 := AddToClassPath(r1.st, dir, a.file);
      AppendOnlyTransitive(st, r1.st, st2);
      Done(st2)
  }

  /** The regular-file branch of `handleNonModJar`: an automatic jar's jdeps
      output goes to the automatic directory, a class path jar is placed on
      the class path. */
  function PlaceJar(cfg: Config, env: Env, st: State, a: Artifact, kind: JarKind): (r: Outcome)
    ensures AppendOnly(st, r.st)
    ensures r.st.nodeStrings == st.nodeStrings && r.st.automaticModules == st.automaticModules
    ensures !GoesOnClassPath(cfg, a, kind) ==>
              r.st.classPathElements == st.classPathElements && r.st.jarsOnClassPath == st.jarsOnClassPath
    ensures GoesOnClassPath(cfg, a, kind) && r.Done? ==>
              Child(cfg.classPathDir.value, Name(a.file)) in r.st.classPathElements
    ensures r.Aborted? ==> r.st.classPathElements == st.classPathElements && r.st.jarsOnClassPath == st.jarsOnClassPath
    ensures Elems(r.st.classPathElements)
            <= Elems(st.classPathElements) + (if cfg.classPathDir.Some? then {Child(cfg.classPathDir.value, Name(a.file))} else {})
    ensures |r.st.jarsOnClassPath| - |st.jarsOnClassPath| == |r.st.classPathElements| - |st.classPathElements| <= 1
    ensures !RunsJdeps(cfg, a, kind) ==> r.Done?
  {
    if !a.regularFile then AppendOnlyRefl(st); Done(st)
    else if kind == AutomaticJar then
      JdepsIf(cfg.automaticDir.Some? && cfg.generateAutomaticJdeps, cfg, env, st, a.node, a.file, cfg.automaticDir)
    else if cfg.classPathDir.Some? then PlaceOnClassPath(cfg, env, st, a, cfg.classPathDir.value)
    else AppendOnlyRefl(st); Done(st)
  }

  /** `handleNonModJar`: record the node, decide the kind, place the jar,
      and only then register an automatic jar's module name. */
  function HandleNonModJar(cfg: Config, env: Env, st: State, a: Artifact): (r: Outcome)
    ensures AppendOnly(st, r.st)
    ensures a.node in r.st.nodeStrings
    ensures Elems(r.st.nodeStrings) == Elems(st.nodeStrings) + {a.node}
    ensures NonModKind(a).Failure? ==>
              r.Aborted? && r.error == ManifestError && r.st == st.(nodeStrings := r.st.nodeStrings)
    ensures !(NonModKind(a).Success? && GoesOnClassPath(cfg, a, NonModKind(a).value)) ==>
              r.st.classPathElements == st.classPathElements && r.st.jarsOnClassPath == st.jarsOnClassPath
    ensures NonModKind(a).Success? && GoesOnClassPath(cfg, a, NonModKind(a).value) && r.Done? ==>
              Child(cfg.classPathDir.value, Name(a.file)) in r.st.classPathElements
    ensures r.Aborted? ==> r.st.classPathElements == st.classPathElements && r.st.jarsOnClassPath == st.jarsOnClassPath
    ensures Elems(r.st.classPathElements)
            <= Elems(st.classPathElements) + (if cfg.classPathDir.Some? then {Child(cfg.classPathDir.value, Name(a.file))} else {})
    ensures |r.st.jarsOnClassPath| - |st.jarsOnClassPath| == |r.st.classPathElements| - |st.classPathElements| <= 1
    ensures Elems(r.st.automaticModules)
            == Elems(st.automaticModules)
               + (if r.Done? && NonModKind(a) == Success(AutomaticJar) then {a.descriptor.value.name} else {})
    ensures r.st.nodeStrings == Insert(st.nodeStrings, a.node)
  {
    var st1 := RecordNode(st, a.node);
    match NonModKind(a)
    case Failure(e) => Aborted(st1, e)
    case Success(kind) =>
      var r1 := PlaceAndRegister(cfg, env, st1, a, kind);
      AppendOnlyTransitive(st, st1, r1.st);
      r1
  }

  /** The part of `handleNonModJar` after the kind is known: place the jar,
      then register an automatic jar's module name if that returned. */
  function PlaceAndRegister(cfg: Config, env: Env, st: State, a: Artifact, kind: JarKind): (r: Outcome)
    requires kind == AutomaticJar ==> a.descriptor.Some?
    ensures AppendOnly(st, r.st)
    ensures r.st.nodeStrings == st.nodeStrings
    ensures !GoesOnClassPath(cfg, a, kind) ==>
              r.st.classPathElements == st.classPathElements && r.st.jarsOnClassPath == st.jarsOnClassPath
    ensures GoesOnClassPath(cfg, a, kind) && r.Done? ==>
              Child(cfg.classPathDir.value, Name(a.file)) in r.st.classPathElements
    ensures r.Aborted? ==> r.st.classPathElements == st.classPathElements && r.st.jarsOnClassPath == st.jarsOnClassPath
    ensures Elems(r.st.classPathElements)
            <= Elems(st.classPathElements) + (if cfg.classPathDir.Some? then {Child(cfg.classPathDir.value, Name(a.file))} else {})
    ensures |r.st.jarsOnClassPath| - |st.jarsOnClassPath| == |r.st.classPathElements| - |st.classPathElements| <= 1
    ensures Elems(r.st.automaticModules)
            == Elems(st.automaticModules) + (if r.Done? && kind == AutomaticJar then {a.descriptor.value.name} else {})
  {
    var r1 := PlaceJar(cfg, env, st, a, kind);
    if r1.Aborted? then r1
    else if kind == AutomaticJar then
      var st2 := RecordAutomatic(r1.st, a.descriptor.value.name);
      AppendOnlyTransitive(st, r1.st, st2);
      Done(st2)
    else r1
  }

  /** `handleModJar`: record the node, run jdeps into the module directory,
      then register the module name as linked. The caller dispatches only
      jars that have a descriptor here. */
  function HandleModJar(cfg: Config, env: Env, st: State, a: Artifact): (r: Outcome)
    requires a.descriptor.Some?
    ensures AppendOnly(st, r.st)
    ensures a.node in r.st.nodeStrings
    ensures Elems(r.st.nodeStrings) == Elems(st.nodeStrings) + {a.node}
    ensures r.st.classPathElements == st.classPathElements && r.st.jarsOnClassPath == st.jarsOnClassPath
    ensures r.st.automaticModules == st.automaticModules
    ensures r.Done? ==> a.descriptor.value.name in r.st.linkedModules
    ensures !cfg.generateModuleJdeps ==>
              r == Done(st.(nodeStrings := r.st.nodeStrings, linkedModules := r.st.linkedModules))
    ensures !cfg.generateModuleJdeps ==> r.st.linkedModules == Insert(st.linkedModules, a.descriptor.value.name)
    ensures r.st.nodeStrings == RecordNode(st, a.node).nodeStrings
  {
    var st1 := RecordNode(st, a.node);
    var r1 := JdepsIf(cfg.generateModuleJdeps, cfg, env, st1, a.node, a.file, cfg.modulesDir);
    AppendOnlyTransitive(st, st1, r1.st);
    if r1.Aborted? then r1
    else
      var st2 := RecordLinked(r1.st, a.descriptor.value.name);
      AppendOnlyTransitive(st, r1.st, st2);
      Done(st2)
  }

  /** Whether `handleNonModJar` runs jdeps for a jar of this kind: a
      regular file whose kind's output directory is set and whose kind's
      switch is on. */
  predicate RunsJdeps(cfg: Config, a: Artifact, kind: JarKind)
  {
    && a.regularFile
    && if kind == AutomaticJar then cfg.automaticDir.Some? && cfg.generateAutomaticJdeps
       else cfg.classPathDir.Some? && cfg.generateClassPathJdeps
  }

  /** The directory jdeps output goes to for a jar of this kind. */
  function JdepsTarget(cfg: Config, kind: JarKind): Option<File>
  {
    if kind == AutomaticJar then cfg.automaticDir else cfg.classPathDir
  }

  /** None of the four per-node maps changed. */
  ghost predicate MapsUnchanged(st: State, st': State)
  {
    && st'.allModulesMap == st.allModulesMap && st'.automaticModulesMap == st.automaticModulesMap
    && st'.linkedModulesMap == st.linkedModulesMap && st'.linkedSystemModulesMap == st.linkedSystemModulesMap
  }

  /** The four map entries of `node` hold the fresh buckets of the names
      in `lines`, sorted against the given system and automatic modules. */
  ghost predicate StoredFor(st: State, node: string, lines: seq<string>, sys: seq<string>, auto: seq<string>)
  {
    && node in st.allModulesMap && node in st.automaticModulesMap
    && node in st.linkedModulesMap && node in st.linkedSystemModulesMap
    && NodeLists(st, node) == FreshBuckets(Names(lines), sys, auto)
  }

  /** When `handleNonModJar` does not run jdeps, it returns having touched
      only the node list, the class path lists and the automatic modules:
      no warning, error, module list or per-node map changes. */
  lemma {:induction false} HandleNonModJarWithoutJdeps(cfg: Config, env: Env, st: State, a: Artifact)
    requires NonModKind(a).Success? && !RunsJdeps(cfg, a, NonModKind(a).value)
    ensures var r := HandleNonModJar(cfg, env, st, a);
            && r.Done? && MapsUnchanged(st, r.st)
            && r.st == st.(nodeStrings := r.st.nodeStrings, classPathElements := r.st.classPathElements,
                           jarsOnClassPath := r.st.jarsOnClassPath, automaticModules := r.st.automaticModules)
  {
    var kind := NonModKind(a).value;
    var st1 := RecordNode(st, a.node);
    PlaceJarWithoutJdeps(cfg, env, st1, a, kind);
  }

  /** Placing a jar without running jdeps returns and changes at most the
      class path lists. */
  lemma {:induction false} PlaceJarWithoutJdeps(cfg: Config, env: Env, st: State, a: Artifact, kind: JarKind)
    requires !RunsJdeps(cfg, a, kind)
    ensures var r := PlaceJar(cfg, env, st, a, kind);
            && r.Done? && MapsUnchanged(st, r.st)
            && r.st == st.(classPathElements := r.st.classPathElements, jarsOnClassPath := r.st.jarsOnClassPath)
  {
    if a.regularFile && kind == ClassPathJar && cfg.classPathDir.Some? {
      assert PlaceJar(cfg, env, st, a, kind) == Done(AddToClassPath(st, cfg.classPathDir.value, a.file));
    }
  }

  /** When `handleNonModJar` runs jdeps, a failing `generateJdeps` stops the
      visit with its own error and state, and a returning one lets it go on. */
  lemma {:induction false} HandleNonModJarPassesAbort(cfg: Config, env: Env, st: State, a: Artifact)
    requires NonModKind(a).Success? && RunsJdeps(cfg, a, NonModKind(a).value)
    ensures var kind := NonModKind(a).value;
            var g := GenerateJdeps(cfg, env, RecordNode(st, a.node), a.node, a.file, JdepsTarget(cfg, kind));
            PassesAbort(HandleNonModJar(cfg, env, st, a), g)
  {
    var kind := NonModKind(a).value;
    var st1 := RecordNode(st, a.node);
    var r1 := PlaceJar(cfg, env, st1, a, kind);
    PlaceJarPassesAbort(cfg, env, st1, a, kind);
    if kind == AutomaticJar && r1.Done? {
      assert HandleNonModJar(cfg, env, st, a) == Done(RecordAutomatic(r1.st, a.descriptor.value.name));
    } else {
      assert HandleNonModJar(cfg, env, st, a) == r1;
    }
  }

  /** With module jdeps on, `handleModJar` fails exactly as its
      `generateJdeps` call does, with the same error and state. */
  lemma {:induction false} HandleModJarPassesAbort(cfg: Config, env: Env, st: State, a: Artifact)
    requires a.descriptor.Some? && cfg.generateModuleJdeps
    ensures PassesAbort(HandleModJar(cfg, env, st, a),
                        GenerateJdeps(cfg, env, RecordNode(st, a.node), a.node, a.file, cfg.modulesDir))
  {
  }

  /** Placing a jar that runs jdeps fails exactly as `generateJdeps` does. */
  lemma {:induction false} PlaceJarPassesAbort(cfg: Config, env: Env, st: State, a: Artifact, kind: JarKind)
    requires RunsJdeps(cfg, a, kind)
    ensures PassesAbort(PlaceJar(cfg, env, st, a, kind), GenerateJdeps(cfg, env, st, a.node, a.file, JdepsTarget(cfg, kind)))
  {
    if kind == ClassPathJar {
      var g := GenerateJdeps(cfg, env, st, a.node, a.file, cfg.classPathDir);
      assert PlaceJar(cfg, env, st, a, kind) == PlaceOnClassPath(cfg, env, st, a, cfg.classPathDir.value);
      if g.Done? {
        assert PlaceOnClassPath(cfg, env, st, a, cfg.classPathDir.value) == Done(AddToClassPath(g.st, cfg.classPathDir.value, a.file));
      }
    }
  }

  /** When `handleNonModJar` runs jdeps and returns, the node's map entries
      are the buckets of what jdeps printed into the kind's directory, run
      against the class path as it stood before the visit: a class path
      jar's own copy is added only afterwards. */
  lemma {:induction false} HandleNonModJarWithJdeps(cfg: Config, env: Env, st: State, a: Artifact)
    requires NonModKind(a).Success? && RunsJdeps(cfg, a, NonModKind(a).value)
    ensures var kind := NonModKind(a).value;
            var r := HandleNonModJar(cfg, env, st, a);
            var lines := JdepsLines(cfg, env, st.classPathElements, a.file, JdepsTarget(cfg, kind));
            r.Done? ==> lines.Some? && StoredFor(r.st, a.node, lines.value, st.systemModules, st.automaticModules)
  {
    var kind := NonModKind(a).value;
    var r := HandleNonModJar(cfg, env, st, a);
    var st1 := RecordNode(st, a.node);
    var r1 := GenerateJdeps(cfg, env, st1, a.node, a.file, JdepsTarget(cfg, kind));
    if kind == AutomaticJar {
      assert PlaceJar(cfg, env, st1, a, kind) == r1;
      if r.Done? {
        assert r.st == RecordAutomatic(r1.st, a.descriptor.value.name);
      }
    } else {
      assert PlaceJar(cfg, env, st1, a, kind) == PlaceOnClassPath(cfg, env, st1, a, cfg.classPathDir.value);
      if r.Done? {
        assert r.st == AddToClassPath(r1.st, cfg.classPathDir.value, a.file);
      }
    }
  }

  /** With module jdeps on, a returning `handleModJar` leaves the node's map
      entries holding the buckets of what jdeps printed into the modules
      directory. */
  lemma {:induction false} HandleModJarWithJdeps(cfg: Config, env: Env, st: State, a: Artifact)
    requires a.descriptor.Some? && cfg.generateModuleJdeps
    ensures var r := HandleModJar(cfg, env, st, a);
            var lines := JdepsLines(cfg, env, st.classPathElements, a.file, cfg.modulesDir);
            r.Done? ==> lines.Some? && StoredFor(r.st, a.node, lines.value, st.systemModules, st.automaticModules)
  {
    var r := HandleModJar(cfg, env, st, a);
    var st1 := RecordNode(st, a.node);
    var r1 := GenerateJdeps(cfg, env, st1, a.node, a.file, cfg.modulesDir);
    if r.Done? {
      assert r.st == RecordLinked(r1.st, a.descriptor.value.name);
    }
  }

  /** An automatic jar's jdeps output is bucketed against the automatic
      modules known before the visit: its own module name is registered
      only after the parse. */
  lemma {:induction false} AutomaticJarParsedBeforeRegistered(cfg: Config, env: Env, st: State, a: Artifact)
    requires NonModKind(a) == Success(AutomaticJar) && a.regularFile
    requires cfg.automaticDir.Some? && cfg.generateAutomaticJdeps
    ensures var r := HandleNonModJar(cfg, env, st, a);
            var lines := JdepsLines(cfg, env, st.classPathElements, a.file, cfg.automaticDir);
            r.Done? ==>
              && lines.Some?
              && a.node in r.st.allModulesMap && a.node in r.st.automaticModulesMap
              && a.node in r.st.linkedModulesMap && a.node in r.st.linkedSystemModulesMap
              && NodeLists(r.st, a.node) == FreshBuckets(Names(lines.value), st.systemModules, st.automaticModules)
              && a.descriptor.value.name in r.st.automaticModules
  {
    var r := HandleNonModJar(cfg, env, st, a);
    var st1 := RecordNode(st, a.node);
    var r1 := GenerateJdeps(cfg, env, st1, a.node, a.file, cfg.automaticDir);
    assert PlaceJar(cfg, env, st1, a, AutomaticJar) == r1;
    if r.Done? {
      assert r.st == RecordAutomatic(r1.st, a.descriptor.value.name);
    }
  }

  /** With jdeps generation off, visiting the same jar again after a visit
      that returned changes nothing: every list insertion is guarded by a
      `contains` check. */
  lemma {:induction false} HandleNonModJarRevisit(cfg: Config, env: Env, st: State, a: Artifact)
    requires !cfg.generateClassPathJdeps && !cfg.generateAutomaticJdeps
    ensures var r := HandleNonModJar(cfg, env, st, a);
            r.Done? ==> HandleNonModJar(cfg, env, r.st, a) == r
  {
    var r := HandleNonModJar(cfg, env, st, a);
    if r.Done? {
      var kind := NonModKind(a).value;
      assert RecordNode(r.st, a.node) == r.st;
      PlaceJarAgain(cfg, env, r.st, a, kind);
      if kind == AutomaticJar {
        assert RecordAutomatic(r.st, a.descriptor.value.name) == r.st;
      }
    }
  }

  /** With jdeps generation off, placing a jar whose class path copy is
      already recorded changes nothing. */
  lemma {:induction false} PlaceJarAgain(cfg: Config, env: Env, st: State, a: Artifact, kind: JarKind)
    requires !cfg.generateClassPathJdeps && !cfg.generateAutomaticJdeps
    requires GoesOnClassPath(cfg, a, kind) ==> Child(cfg.classPathDir.value, Name(a.file)) in st.classPathElements
    ensures PlaceJar(cfg, env, st, a, kind) == Done(st)
  {
  }

  /** With module jdeps off, visiting the same modular jar again after a
      visit that returned changes nothing. */
  lemma {:induction false} HandleModJarRevisit(cfg: Config, env: Env, st: State, a: Artifact)
    requires a.descriptor.Some?
    ensures var r := HandleModJar(cfg, env, st, a);
            r.Done? ==> HandleModJar(cfg, env, r.st, a) == r
  {
    var r := HandleModJar(cfg, env, st, a);
    if r.Done? {
      assert RecordNode(r.st, a.node) == r.st;
      if cfg.generateModuleJdeps {
        ModJarJdepsAgain(cfg, env, st, a);
      }
      assert RecordLinked(r.st, a.descriptor.value.name) == r.st;
    }
  }

  /** Running jdeps for a modular jar again, against the state a returning
      visit left, returns that state: the class path is the same, so the
      runner answers the same, and everything it printed is there already. */
  lemma {:induction false} ModJarJdepsAgain(cfg: Config, env: Env, st: State, a: Artifact)
    requires a.descriptor.Some? && cfg.generateModuleJdeps
    requires HandleModJar(cfg, env, st, a).Done?
    ensures var r := HandleModJar(cfg, env, st, a);
            GenerateJdeps(cfg, env, r.st, a.node, a.file, cfg.modulesDir) == Done(r.st)
  {
    var r := HandleModJar(cfg, env, st, a);
    var st1 := RecordNode(st, a.node);
    var r1 := GenerateJdeps(cfg, env, st1, a.node, a.file, cfg.modulesDir);
    assert r.st == RecordLinked(r1.st, a.descriptor.value.name);
    var lines := JdepsLines(cfg, env, st1.classPathElements, a.file, cfg.modulesDir).value;
    ParseAndStoreAbsorbs(st1, a.node, lines);
    ParseAndStoreAbsorbed(r.st, a.node, lines);
    GenerateJdepsExits(cfg, env, st1, a.node, a.file, cfg.modulesDir);
    GenerateJdepsExits(cfg, env, r.st, a.node, a.file, cfg.modulesDir);
  }

  /** The linked system modules stay system modules that are also known
      modules after a parse. */
  lemma {:induction false} ParseKeepsLinkedSystem(st: State, lines: seq<string>)
    requires Elems(st.linkedSystemModules) <= Elems(st.systemModules) * Elems(st.allModules)
    ensures var p := ParseLines(Acc(st, NoBuckets), lines).st;
            Elems(p.linkedSystemModules) <= Elems(p.systemModules) * Elems(p.allModules)
  {
    ParsedKeepsLinkedSystem(st, ParseLines(Acc(st, NoBuckets), lines), lines);
  }

  lemma {:induction false} ParsedKeepsLinkedSystem(st: State, p: Acc, lines: seq<string>)
    requires ParsedFrom(Acc(st, NoBuckets), p, lines)
    requires Elems(st.linkedSystemModules) <= Elems(st.systemModules) * Elems(st.allModules)
    ensures Elems(p.st.linkedSystemModules) <= Elems(p.st.systemModules) * Elems(p.st.allModules)
  {
    var names := Names(lines);
    var inSys := InBucket(names, st.systemModules, st.automaticModules, SystemDep);
    InsertAllMembers(p.st.allModules, st.allModules, names);
    InsertAllMembers(p.st.linkedSystemModules, st.linkedSystemModules, inSys);
    GrowWithin(st.linkedSystemModules, p.st.linkedSystemModules, st.allModules, p.st.allModules, st.systemModules, names, inSys);
  }

  /** Set reasoning behind `ParseKeepsLinkedSystem`, on membership alone. */
  lemma {:induction false} GrowWithin(lsm: seq<string>, lsm': seq<string>, all: seq<string>, all': seq<string>,
                   sys: seq<string>, names: seq<string>, added: seq<string>)
    requires forall x :: x in lsm' <==> x in lsm || x in added
    requires forall x :: x in all' <==> x in all || x in names
    requires forall x :: x in added ==> x in names && x in sys
    requires Elems(lsm) <= Elems(sys) * Elems(all)
    ensures Elems(lsm') <= Elems(sys) * Elems(all')
  {
    forall d | d in Elems(lsm')
      ensures d in Elems(sys) * Elems(all')
    {
      if d in lsm {
        assert d in Elems(lsm);
      }
    }
  }

  /** `generateJdeps` keeps the handler invariant for a node already
      recorded in `nodeStrings`, whether it returns or throws. */
  lemma {:induction false} GenerateJdepsValid(cfg: Config, env: Env, st: State, node: string, source: File, targetDir: Option<File>)
    requires Valid(cfg, st) && node in st.nodeStrings
    ensures Valid(cfg, GenerateJdeps(cfg, env, st, node, source, targetDir).st)
  {
    var r := GenerateJdeps(cfg, env, st, node, source, targetDir);
    if Parsed(r) {
      ParseAndStoreValid(cfg, st, node, JdepsLines(cfg, env, st.classPathElements, source, targetDir).value);
    }
  }

  /** Parsing a node's jdeps output and storing its lists keeps the
      handler invariant. */
  lemma {:induction false} ParseAndStoreValid(cfg: Config, st: State, node: string, lines: seq<string>)
    requires Valid(cfg, st) && node in st.nodeStrings
    ensures Valid(cfg, ParseAndStore(st, node, lines))
  {
    StoreValid(cfg, st, node, ParseLines(Acc(st, NoBuckets), lines), lines);
  }

  lemma {:induction false} StoreValid(cfg: Config, st: State, node: string, p: Acc, lines: seq<string>)
    requires ParsedFrom(Acc(st, NoBuckets), p, lines)
    requires Valid(cfg, st) && node in st.nodeStrings
    ensures Valid(cfg, Store(p.st, node, p.b))
  {
    ParsedNoDup(Acc(st, NoBuckets), p, lines);
    ParsedKeepsLinkedSystem(st, p, lines);
    ParsedAppendOnly(st, p, lines);
    FreshNodeValid(st, p, lines);
    ValidAfterStore(cfg, st, p.st, node, p.b);
  }

  /** The handler invariant after a parse that only appended to the lists
      it touches, once the node's valid lists are stored. */
  lemma {:induction false} ValidAfterStore(cfg: Config, st: State, p: State, node: string, b: Buckets)
    requires Valid(cfg, st) && node in st.nodeStrings
    requires p.classPathElements == st.classPathElements && p.jarsOnClassPath == st.jarsOnClassPath
    requires p.nodeStrings == st.nodeStrings && p.automaticModules == st.automaticModules
    requires p.allModulesMap == st.allModulesMap && p.automaticModulesMap == st.automaticModulesMap
    requires p.linkedModulesMap == st.linkedModulesMap && p.linkedSystemModulesMap == st.linkedSystemModulesMap
    requires NoDup(p.warnings) && NoDup(p.errors) && NoDup(p.allModules)
    requires NoDup(p.linkedModules) && NoDup(p.linkedSystemModules)
    requires Elems(p.linkedSystemModules) <= Elems(p.systemModules) * Elems(p.allModules)
    requires AppendOnly(st, p) && NodeValid(p, b)
    ensures Valid(cfg, Store(p, node, b))
  {
    var st' := Store(p, node, b);
    assert ClassPathMatches(cfg, st');
    StoredNodesValid(st, p, node, b);
  }

  /** The stored node's lists are valid, and those of every other node stay
      valid while the global lists only grow. */
  lemma {:induction false} StoredNodesValid(st: State, p: State, node: string, b: Buckets)
    requires st.automaticModulesMap.Keys == st.allModulesMap.Keys
    requires st.linkedModulesMap.Keys == st.allModulesMap.Keys
    requires st.linkedSystemModulesMap.Keys == st.allModulesMap.Keys
    requires forall n :: n in st.allModulesMap ==> NodeValid(st, NodeLists(st, n))
    requires p.allModulesMap == st.allModulesMap && p.automaticModulesMap == st.automaticModulesMap
    requires p.linkedModulesMap == st.linkedModulesMap && p.linkedSystemModulesMap == st.linkedSystemModulesMap
    requires AppendOnly(st, p) && NodeValid(p, b)
    ensures var st' := Store(p, node, b);
            forall n :: n in st'.allModulesMap ==> NodeValid(st', NodeLists(st', n))
  {
    var st' := Store(p, node, b);
    forall n | n in st'.allModulesMap
      ensures NodeValid(st', NodeLists(st', n))
    {
      if n == node {
        assert NodeLists(st', n) == b;
      } else {
        assert NodeLists(st', n) == NodeLists(st, n);
        NodeValidGrows(st, st', NodeLists(st, n));
      }
    }
  }

  /** One visit of the dependency-graph traversal, as dispatched by the
      traversal: modular jars to `handleModJar`, the others to `handleNonModJar`. */
  datatype Visit = ModJar(artifact: Artifact) | NonModJar(artifact: Artifact)

  predicate Dispatchable(v: Visit)
  {
    v.ModJar? ==> v.artifact.descriptor.Some?
  }

  function Step(cfg: Config, env: Env, st: State, v: Visit): (r: Outcome)
    requires Dispatchable(v)
  {
    match v
    case ModJar(a) => HandleModJar(cfg, env, st, a)
    case NonModJar(a) => HandleNonModJar(cfg, env, st, a)
  }

  /** The visits in traversal order, stopping at the first exception. */
  function Run(cfg: Config, env: Env, st: State, visits: seq<Visit>): (r: Outcome)
    requires forall i :: 0 <= i < |visits| ==> Dispatchable(visits[i])
    ensures AppendOnly(st, r.st)
    decreases |visits|
  {
    if |visits| == 0 then AppendOnlyRefl(st); Done(st)
    else
      var r1 := Step(cfg, env, st, visits[0]);
      if r1.Aborted? then r1
      else
        var r := Run(cfg, env, r1.st, visits[1..]);
        AppendOnlyTransitive(st, r1.st, r.st);
        r
  }

  /** Recording a node keeps the invariant. */
  lemma {:induction false} RecordNodeValid(cfg: Config, st: State, node: string)
    requires Valid(cfg, st)
    ensures Valid(cfg, RecordNode(st, node))
  {
    var r := RecordNode(st, node);
    NodesUnchanged(st, r);
  }

  /** Registering an automatic module name keeps the invariant. */
  lemma {:induction false} RecordAutomaticValid(cfg: Config, st: State, name: string)
    requires Valid(cfg, st)
    ensures Valid(cfg, RecordAutomatic(st, name))
  {
    var r := RecordAutomatic(st, name);
    NodesUnchanged(st, r);
  }

  /** Registering a linked module name keeps the invariant. */
  lemma {:induction false} RecordLinkedValid(cfg: Config, st: State, name: string)
    requires Valid(cfg, st)
    ensures Valid(cfg, RecordLinked(st, name))
  {
    var r := RecordLinked(st, name);
    NodesUnchanged(st, r);
  }

  /** Putting a jar on the class path keeps the invariant: the new element
      is the copy of the new jar name, which cannot be on the list already
      because its copy is not. */
  lemma {:induction false} AddToClassPathValid(cfg: Config, st: State, jar: File)
    requires Valid(cfg, st) && cfg.classPathDir.Some?
    ensures Valid(cfg, AddToClassPath(st, cfg.classPathDir.value, jar))
  {
    var r := AddToClassPath(st, cfg.classPathDir.value, jar);
    ClassPathStaysMatched(cfg, st, jar);
    NodesUnchanged(st, r);
  }

  lemma {:induction false} ClassPathStaysMatched(cfg: Config, st: State, jar: File)
    requires ClassPathMatches(cfg, st) && cfg.classPathDir.Some?
    requires NoDup(st.classPathElements) && NoDup(st.jarsOnClassPath)
    ensures var r := AddToClassPath(st, cfg.classPathDir.value, jar);
            ClassPathMatches(cfg, r) && NoDup(r.classPathElements) && NoDup(r.jarsOnClassPath)
  {
    var dir := cfg.classPathDir.value;
    var target := Child(dir, Name(jar));
    if target !in st.classPathElements {
      var cpe := st.classPathElements + [target];
      var jars := st.jarsOnClassPath + [Name(jar)];
      forall i | 0 <= i < |st.jarsOnClassPath|
        ensures st.jarsOnClassPath[i] != Name(jar)
      {
        assert st.classPathElements[i] == Child(dir, st.jarsOnClassPath[i]);
      }
      AppendFreshNoDup(st.classPathElements, target);
      AppendFreshNoDup(st.jarsOnClassPath, Name(jar));
      forall i | 0 <= i < |cpe|
        ensures cpe[i] == Child(dir, jars[i])
      {
        if i < |st.classPathElements| {
          assert cpe[i] == st.classPathElements[i];
        }
      }
    }
  }

  lemma {:induction false} AppendFreshNoDup<T>(s: seq<T>, x: T)
    requires NoDup(s) && x !in s
    ensures NoDup(s + [x])
  {
  }

  /** Node lists stay valid through any step that leaves the maps alone and
      only appends. */
  lemma {:induction false} NodesUnchanged(st: State, st': State)
    requires AppendOnly(st, st')
    requires st'.allModulesMap == st.allModulesMap && st'.automaticModulesMap == st.automaticModulesMap
    requires st'.linkedModulesMap == st.linkedModulesMap && st'.linkedSystemModulesMap == st.linkedSystemModulesMap
    requires st.automaticModulesMap.Keys == st.allModulesMap.Keys
    requires st.linkedModulesMap.Keys == st.allModulesMap.Keys
    requires st.linkedSystemModulesMap.Keys == st.allModulesMap.Keys
    requires forall n :: n in st.allModulesMap ==> NodeValid(st, NodeLists(st, n))
    ensures forall n :: n in st'.allModulesMap ==> NodeValid(st', NodeLists(st', n))
    ensures st.allModulesMap.Keys <= Elems(st.nodeStrings) ==> st'.allModulesMap.Keys <= Elems(st'.nodeStrings)
  {
    forall n | n in st'.allModulesMap
      ensures NodeValid(st', NodeLists(st', n))
    {
      NodeValidGrows(st, st', NodeLists(st, n));
    }
    PrefixElems(st.nodeStrings, st'.nodeStrings);
  }

  /** `generateJdeps` guarded by its switch keeps the invariant. */
  lemma {:induction false} JdepsIfValid(enabled: bool, cfg: Config, env: Env, st: State, node: string, source: File, targetDir: Option<File>)
    requires Valid(cfg, st) && node in st.nodeStrings
    ensures Valid(cfg, JdepsIf(enabled, cfg, env, st, node, source, targetDir).st)
  {
    if enabled {
      GenerateJdepsValid(cfg, env, st, node, source, targetDir);
    }
  }

  lemma {:induction false} PlaceJarValid(cfg: Config, env: Env, st: State, a: Artifact, kind: JarKind)
    requires Valid(cfg, st) && a.node in st.nodeStrings
    ensures Valid(cfg, PlaceJar(cfg, env, st, a, kind).st)
  {
    if !a.regularFile {
      JdepsIfValid(false, cfg, env, st, a.node, a.file, None);
    } else if kind == AutomaticJar {
      JdepsIfValid(cfg.automaticDir.Some? && cfg.generateAutomaticJdeps, cfg, env, st, a.node, a.file, cfg.automaticDir);
    } else if cfg.classPathDir.Some? {
      var r1 := JdepsIf(cfg.generateClassPathJdeps, cfg, env, st, a.node, a.file, cfg.classPathDir);
      JdepsIfValid(cfg.generateClassPathJdeps, cfg, env, st, a.node, a.file, cfg.classPathDir);
      if r1.Done? {
        AddToClassPathValid(cfg, r1.st, a.file);
      }
    } else {
      JdepsIfValid(false, cfg, env, st, a.node, a.file, None);
    }
  }

  /** `handleNonModJar` keeps the invariant, whether it returns or throws. */
  lemma {:induction false} HandleNonModJarValid(cfg: Config, env: Env, st: State, a: Artifact)
    requires Valid(cfg, st)
    ensures Valid(cfg, HandleNonModJar(cfg, env, st, a).st)
  {
    var st1 := RecordNode(st, a.node);
    RecordNodeValid(cfg, st, a.node);
    if NonModKind(a).Success? {
      PlaceAndRegisterValid(cfg, env, st1, a, NonModKind(a).value);
    }
  }

  lemma {:induction false} PlaceAndRegisterValid(cfg: Config, env: Env, st: State, a: Artifact, kind: JarKind)
    requires Valid(cfg, st) && a.node in st.nodeStrings
    requires kind == AutomaticJar ==> a.descriptor.Some?
    ensures Valid(cfg, PlaceAndRegister(cfg, env, st, a, kind).st)
  {
    var r1 := PlaceJar(cfg, env, st, a, kind);
    PlaceJarValid(cfg, env, st, a, kind);
    if r1.Done? && kind == AutomaticJar {
      var st2 := RecordAutomatic(r1.st, a.descriptor.value.name);
      RecordAutomaticValid(cfg, r1.st, a.descriptor.value.name);
      assert PlaceAndRegister(cfg, env, st, a, kind).st == st2;
    } else {
      assert PlaceAndRegister(cfg, env, st, a, kind).st == r1.st;
    }
  }

  /** `handleModJar` keeps the invariant, whether it returns or throws. */
  lemma {:induction false} HandleModJarValid(cfg: Config, env: Env, st: State, a: Artifact)
    requires Valid(cfg, st) && a.descriptor.Some?
    ensures Valid(cfg, HandleModJar(cfg, env, st, a).st)
  {
    var st1 := RecordNode(st, a.node);
    RecordNodeValid(cfg, st, a.node);
    var r1 := JdepsIf(cfg.generateModuleJdeps, cfg, env, st1, a.node, a.file, cfg.modulesDir);
    JdepsIfValid(cfg.generateModuleJdeps, cfg, env, st1, a.node, a.file, cfg.modulesDir);
    if r1.Done? {
      RecordLinkedValid(cfg, r1.st, a.descriptor.value.name);
    }
  }

  /** One visit keeps the invariant, whether the handler returns or throws. */
  lemma {:induction false} StepValid(cfg: Config, env: Env, st: State, v: Visit)
    requires Valid(cfg, st) && Dispatchable(v)
    ensures Valid(cfg, Step(cfg, env, st, v).st)
  {
    match v
    case ModJar(a) => HandleModJarValid(cfg, env, st, a);
    case NonModJar(a) => HandleNonModJarValid(cfg, env, st, a);
  }

  /** A run is its first step followed, when that returns, by the run of
      the remaining visits. */
  lemma {:induction false} RunCons(cfg: Config, env: Env, st: State, visits: seq<Visit>)
    requires |visits| > 0
    requires forall i :: 0 <= i < |visits| ==> Dispatchable(visits[i])
    ensures forall i :: 0 <= i < |visits[1..]| ==> Dispatchable(visits[1..][i])
    ensures var r1 := Step(cfg, env, st, visits[0]);
            Run(cfg, env, st, visits) == if r1.Aborted? then r1 else Run(cfg, env, r1.st, visits[1..])
  {
  }

  /** The invariant holds after any sequence of visits, from a freshly
      constructed handler on: no list ever holds a duplicate, the class
      path lists stay in step, and every node's buckets partition its
      dependencies. */
  lemma {:induction false} RunValid(cfg: Config, env: Env, st: State, visits: seq<Visit>)
    requires Valid(cfg, st)
    requires forall i :: 0 <= i < |visits| ==> Dispatchable(visits[i])
    ensures Valid(cfg, Run(cfg, env, st, visits).st)
    decreases |visits|
  {
    if |visits| > 0 {
      var r1 := Step(cfg, env, st, visits[0]);
      StepValid(cfg, env, st, visits[0]);
      RunCons(cfg, env, st, visits);
      if r1.Done? {
        RunValid(cfg, env, r1.st, visits[1..]);
      }
    }
  }

  /** Visit `k` is where the run stops: every visit before it returned, and
      visit `k` throws from the state they left. */
  ghost predicate FailsAt(cfg: Config, env: Env, st: State, visits: seq<Visit>, k: int)
    requires forall i :: 0 <= i < |visits| ==> Dispatchable(visits[i])
  {
    && 0 <= k < |visits|
    && var p := Run(cfg, env, st, visits[..k]);
       p.Done? && Step(cfg, env, p.st, visits[k]).Aborted?
  }

  /** The run over `visits` throws exactly when some visit throws after all
      earlier ones returned, and then it ends with that visit's outcome. */
  ghost predicate StopsAtFirstAbort(cfg: Config, env: Env, st: State, visits: seq<Visit>)
    requires forall i :: 0 <= i < |visits| ==> Dispatchable(visits[i])
  {
    AbortsIffFails(cfg, env, st, visits) && EndsWithFailure(cfg, env, st, visits)
  }

  ghost predicate AbortsIffFails(cfg: Config, env: Env, st: State, visits: seq<Visit>)
    requires forall i :: 0 <= i < |visits| ==> Dispatchable(visits[i])
  {
    Run(cfg, env, st, visits).Aborted? <==> exists k :: FailsAt(cfg, env, st, visits, k)
  }

  ghost predicate EndsWithFailure(cfg: Config, env: Env, st: State, visits: seq<Visit>)
    requires forall i :: 0 <= i < |visits| ==> Dispatchable(visits[i])
  {
    forall k :: FailsAt(cfg, env, st, visits, k) ==>
      Run(cfg, env, st, visits) == Step(cfg, env, Run(cfg, env, st, visits[..k]).st, visits[k])
  }

  /** A run throws exactly when some visit throws after all earlier ones
      returned, and then it ends with that visit's exception and state:
      the traversal does not catch what a handler throws. */
  lemma {:induction false} RunStopsAtFirstAbort(cfg: Config, env: Env, st: State, visits: seq<Visit>)
    requires forall i :: 0 <= i < |visits| ==> Dispatchable(visits[i])
    ensures StopsAtFirstAbort(cfg, env, st, visits)
    decreases |visits|
  {
    if |visits| > 0 {
      RunCons(cfg, env, st, visits);
      var r1 := Step(cfg, env, st, visits[0]);
      if r1.Aborted? {
        FirstVisitAborts(cfg, env, st, visits);
      } else {
        RunStopsAtFirstAbort(cfg, env, r1.st, visits[1..]);
        FirstVisitReturns(cfg, env, st, visits);
      }
    }
  }

  /** The run's first visit throws: the run stops there, and nowhere else. */
  lemma {:induction false} FirstVisitAborts(cfg: Config, env: Env, st: State, visits: seq<Visit>)
    requires forall i :: 0 <= i < |visits| ==> Dispatchable(visits[i])
    requires |visits| > 0 && Step(cfg, env, st, visits[0]).Aborted?
    ensures StopsAtFirstAbort(cfg, env, st, visits)
  {
    RunCons(cfg, env, st, visits);
    assert visits[..0] == [];
    assert FailsAt(cfg, env, st, visits, 0);
    forall k | FailsAt(cfg, env, st, visits, k)
      ensures k == 0
    {
      if k > 0 {
        RunPrefixAborted(cfg, env, st, visits, k);
      }
    }
  }

  /** The run's first visit returns: the run stops at visit `k + 1` exactly
      when the run of the rest stops at its visit `k`. */
  lemma {:induction false} FirstVisitReturns(cfg: Config, env: Env, st: State, visits: seq<Visit>)
    requires forall i :: 0 <= i < |visits| ==> Dispatchable(visits[i])
    requires |visits| > 0 && Step(cfg, env, st, visits[0]).Done?
    requires StopsAtFirstAbort(cfg, env, Step(cfg, env, st, visits[0]).st, visits[1..])
    ensures StopsAtFirstAbort(cfg, env, st, visits)
  {
    FirstVisitReturnsIff(cfg, env, st, visits);
    FirstVisitReturnsEnds(cfg, env, st, visits);
  }

  lemma {:induction false} FirstVisitReturnsIff(cfg: Config, env: Env, st: State, visits: seq<Visit>)
    requires forall i :: 0 <= i < |visits| ==> Dispatchable(visits[i])
    requires |visits| > 0 && Step(cfg, env, st, visits[0]).Done?
    requires AbortsIffFails(cfg, env, Step(cfg, env, st, visits[0]).st, visits[1..])
    ensures AbortsIffFails(cfg, env, st, visits)
  {
    var r1 := Step(cfg, env, st, visits[0]);
    var tail := visits[1..];
    RunCons(cfg, env, st, visits);
    if Run(cfg, env, st, visits).Aborted? {
      var j :| FailsAt(cfg, env, r1.st, tail, j);
      ShiftFailsAt(cfg, env, st, visits, j);
    }
    if k :| FailsAt(cfg, env, st, visits, k) {
      NotFailsAtFirst(cfg, env, st, visits);
      ShiftFailsAt(cfg, env, st, visits, k - 1);
    }
  }

  lemma {:induction false} FirstVisitReturnsEnds(cfg: Config, env: Env, st: State, visits: seq<Visit>)
    requires forall i :: 0 <= i < |visits| ==> Dispatchable(visits[i])
    requires |visits| > 0 && Step(cfg, env, st, visits[0]).Done?
    requires EndsWithFailure(cfg, env, Step(cfg, env, st, visits[0]).st, visits[1..])
    ensures EndsWithFailure(cfg, env, st, visits)
  {
    var r1 := Step(cfg, env, st, visits[0]);
    RunCons(cfg, env, st, visits);
    forall k | FailsAt(cfg, env, st, visits, k)
      ensures Run(cfg, env, st, visits) == Step(cfg, env, Run(cfg, env, st, visits[..k]).st, visits[k])
    {
      NotFailsAtFirst(cfg, env, st, visits);
      ShiftFailsAt(cfg, env, st, visits, k - 1);
    }
  }

  /** A first visit that returns is not where the run stops. */
  lemma {:induction false} NotFailsAtFirst(cfg: Config, env: Env, st: State, visits: seq<Visit>)
    requires forall i :: 0 <= i < |visits| ==> Dispatchable(visits[i])
    requires |visits| > 0 && Step(cfg, env, st, visits[0]).Done?
    ensures !FailsAt(cfg, env, st, visits, 0)
  {
    assert visits[..0] == [];
  }

  /** After a first visit that returns, stopping at `k + 1` is stopping at
      `k` in the rest, from the same prefix state. */
  lemma {:induction false} ShiftFailsAt(cfg: Config, env: Env, st: State, visits: seq<Visit>, k: int)
    requires forall i :: 0 <= i < |visits| ==> Dispatchable(visits[i])
    requires 0 <= k < |visits| - 1 && Step(cfg, env, st, visits[0]).Done?
    ensures var r1 := Step(cfg, env, st, visits[0]);
            && Run(cfg, env, st, visits[..k + 1]) == Run(cfg, env, r1.st, visits[1..][..k])
            && visits[k + 1] == visits[1..][k]
            && (FailsAt(cfg, env, st, visits, k + 1) <==> FailsAt(cfg, env, r1.st, visits[1..], k))
  {
    RunPrefixCons(cfg, env, st, visits, k);
  }

  /** When the first visit throws, every non-empty prefix run ends there. */
  lemma {:induction false} RunPrefixAborted(cfg: Config, env: Env, st: State, visits: seq<Visit>, k: int)
    requires forall i :: 0 <= i < |visits| ==> Dispatchable(visits[i])
    requires 1 <= k <= |visits| && Step(cfg, env, st, visits[0]).Aborted?
    ensures Run(cfg, env, st, visits[..k]) == Step(cfg, env, st, visits[0])
  {
    RunCons(cfg, env, st, visits[..k]);
    assert visits[..k][0] == visits[0];
  }

  /** When the first visit returns, a prefix run continues as the run of
      the rest from the state it left. */
  lemma {:induction false} RunPrefixCons(cfg: Config, env: Env, st: State, visits: seq<Visit>, k: int)
    requires forall i :: 0 <= i < |visits| ==> Dispatchable(visits[i])
    requires 0 <= k < |visits| - 1 && Step(cfg, env, st, visits[0]).Done?
    ensures Run(cfg, env, st, visits[..k + 1]) == Run(cfg, env, Step(cfg, env, st, visits[0]).st, visits[1..][..k])
  {
    RunCons(cfg, env, st, visits[..k + 1]);
    assert visits[..k + 1][0] == visits[0];
    assert visits[..k + 1][1..] == visits[1..][..k];
  }
}

=== FILE: command.dfy ===
/** The jdeps command line (`getColonSeparatedList`,
    `createJDepsCommandLine`) and the reference argument layout it meets:
    `[--class-path P]? [--module-path M]? --print-module-deps
    --ignore-missing-deps SOURCE`, paths canonical and `:`-separated. */
module JdepsCommand {
  import opened Wrappers
  import opened JavaStrings
  import opened Files
  import opened HandlerState

  /** `f.getCanonicalPath()`, failing the way the handler rethrows it. */
  function Resolve(canon: File -> Option<string>, f: File): (r: Result<string, Error>)
    ensures r.Success? <==> canon(f).Some?
    ensures r.Success? ==> r.value == canon(f).value
    ensures r.Failure? ==> r.error == PathError
  {
    match canon(f)
    case None => Failure(PathError)
    case Some(p) => Success(p)
  }

  /** Every file has a canonical path. */
  predicate AllResolve(canon: File -> Option<string>, fs: seq<File>)
  {
    |fs| == 0 || (canon(fs[0]).Some? && AllResolve(canon, fs[1..]))
  }

  /** The canonical paths of files that all have one, in order. */
  function Canonicals(canon: File -> Option<string>, fs: seq<File>): (r: seq<string>)
    requires AllResolve(canon, fs)
    ensures |r| == |fs|
  {
    if |fs| == 0 then [] else [canon(fs[0]).value] + Canonicals(canon, fs[1..])
  }

  /** No canonical path is the empty string (a canonical path is absolute). */
  predicate NonEmptyCanonicals(canon: File -> Option<string>, fs: seq<File>)
  {
    |fs| == 0 || (canon(fs[0]) != Some("") && NonEmptyCanonicals(canon, fs[1..]))
  }

  /** The loop of `getColonSeparatedList`: append `:` when the builder is
      non-empty, then the next canonical path; any failure aborts. */
  function AppendPaths(canon: File -> Option<string>, elements: seq<File>, sb: string): (r: Result<string, Error>)
    ensures r.Success? <==> AllResolve(canon, elements)
    ensures r.Failure? ==> r.error == PathError
    decreases |elements|
  {
    if |elements| == 0 then Success(sb)
    else
      var sep := if |sb| > 0 then sb + ":" else sb;
      var p :- Resolve(canon, elements[0]);
      AppendPaths(canon, elements[1..], sep + p)
  }

  /** `getColonSeparatedList(elements)` */
  function ColonSeparatedList(canon: File -> Option<string>, elements: seq<File>): (r: Result<string, Error>)
    ensures r.Success? <==> AllResolve(canon, elements)
    ensures r.Failure? ==> r.error == PathError
  {
    AppendPaths(canon, elements, "")
  }

  /** With non-empty canonical paths the builder loop is a `:`-join,
      continuing whatever the builder already holds. */
  lemma {:induction false} AppendPathsIsJoin(canon: File -> Option<string>, elements: seq<File>, sb: string)
    requires AllResolve(canon, elements) && NonEmptyCanonicals(canon, elements)
    ensures AppendPaths(canon, elements, sb) == Success(
              if |sb| == 0 then Join(Canonicals(canon, elements), ':')
              else if |elements| == 0 then sb
              else sb + ":" + Join(Canonicals(canon, elements), ':'))
    decreases |elements|
  {
    if |elements| > 0 {
      var p := canon(elements[0]).value;
      var sep := if |sb| > 0 then sb + ":" else sb;
      var rest := Canonicals(canon, elements[1..]);
      assert p != "";
      AppendPathsIsJoin(canon, elements[1..], sep + p);
      assert AppendPaths(canon, elements, sb) == AppendPaths(canon, elements[1..], sep + p);
      assert Canonicals(canon, elements) == [p] + rest;
      assert ([p] + rest)[1..] == rest;
      if |rest| == 0 {
        assert Join([p] + rest, ':') == p;
      } else {
        assert Join([p] + rest, ':') == p + [':'] + Join(rest, ':');
        if |sb| > 0 {
          assert sep + p == sb + ":" + p;
          assert (sb + ":" + p) + ":" + Join(rest, ':') == sb + ":" + (p + [':'] + Join(rest, ':'));
        } else {
          assert sep + p == p;
          assert p + ":" + Join(rest, ':') == p + [':'] + Join(rest, ':');
        }
      }
    }
  }

  /** The class path argument is the `:`-join of the canonical paths of the
      elements, in list order, when none of them is empty. */
  lemma {:induction false} ColonSeparatedListIsJoin(canon: File -> Option<string>, elements: seq<File>)
    requires AllResolve(canon, elements) && NonEmptyCanonicals(canon, elements)
    ensures ColonSeparatedList(canon, elements) == Success(Join(Canonicals(canon, elements), ':'))
  {
    AppendPathsIsJoin(canon, elements, "");
  }

  /** The configured module directories, modules first, then automatic jars. */
  function ModuleDirs(cfg: Config): seq<File>
  {
    (if cfg.modulesDir.Some? then [cfg.modulesDir.value] else [])
    + (if cfg.automaticDir.Some? then [cfg.automaticDir.value] else [])
  }

  /** The module directories resolve when each configured one does, and
      their `:`-join puts the separator only between two present paths. */
  lemma {:induction false} ModuleDirsJoin(cfg: Config, canon: File -> Option<string>)
    ensures AllResolve(canon, ModuleDirs(cfg)) <==>
              && (cfg.modulesDir.Some? ==> canon(cfg.modulesDir.value).Some?)
              && (cfg.automaticDir.Some? ==> canon(cfg.automaticDir.value).Some?)
    ensures AllResolve(canon, ModuleDirs(cfg)) ==>
              Join(Canonicals(canon, ModuleDirs(cfg)), ':')
              == (if cfg.modulesDir.Some? then canon(cfg.modulesDir.value).value else "")
                 + (if cfg.modulesDir.Some? && cfg.automaticDir.Some? then ":" else "")
                 + (if cfg.automaticDir.Some? then canon(cfg.automaticDir.value).value else "")
  {
    var dirs := ModuleDirs(cfg);
    match (cfg.modulesDir, cfg.automaticDir)
    case (None, None) =>
      assert dirs == [];
    case (Some(md), None) =>
      assert dirs == [md] && dirs[1..] == [];
    case (None, Some(ad)) =>
      assert dirs == [ad] && dirs[1..] == [];
    case (Some(md), Some(ad)) =>
      assert dirs == [md, ad] && dirs[1..] == [ad] && dirs[1..][1..] == [];
      assert AllResolve(canon, dirs) <==> canon(md).Some? && AllResolve(canon, [ad]);
      assert AllResolve(canon, [ad]) <==> canon(ad).Some?;
      if AllResolve(canon, dirs) {
        assert Canonicals(canon, dirs) == [canon(md).value, canon(ad).value];
      }
  }

  /** The `--module-path` arguments of `createJDepsCommandLine`. */
  function ModulePathArgs(cfg: Config, canon: File -> Option<string>): (r: Result<seq<string>, Error>)
    ensures r.Success? <==> AllResolve(canon, ModuleDirs(cfg))
    ensures r.Failure? ==> r.error == PathError
    ensures r.Success? ==> (|r.value| == 0 <==> |ModuleDirs(cfg)| == 0)
    ensures r.Success? && |ModuleDirs(cfg)| > 0 ==>
              r.value == ["--module-path", Join(Canonicals(canon, ModuleDirs(cfg)), ':')]
  {
    ModuleDirsJoin(cfg, canon);
    if cfg.automaticDir.None? && cfg.modulesDir.None? then Success([])
    else
      var m :- if cfg.modulesDir.Some? then Resolve(canon, cfg.modulesDir.value) else Success("");
      var a :- if cfg.automaticDir.Some? then Resolve(canon, cfg.automaticDir.value) else Success("");
      var sep := if cfg.modulesDir.Some? && cfg.automaticDir.Some? then ":" else "";
      Success(["--module-path", m + sep + a])
  }

  /** `createJDepsCommandLine(source)` against the current class path elements. */
  function CommandLine(cfg: Config, canon: File -> Option<string>, classPath: seq<File>, source: File): (r: Result<seq<string>, Error>)
    ensures r.Success? <==> AllResolve(canon, classPath) && AllResolve(canon, ModuleDirs(cfg)) && canon(source).Some?
    ensures r.Failure? ==> r.error == PathError
    ensures r.Success? ==>
              && |r.value| == 3 + (if |classPath| > 0 then 2 else 0) + (if |ModuleDirs(cfg)| > 0 then 2 else 0)
              && r.value[|r.value| - 3..] == ["--print-module-deps", "--ignore-missing-deps", canon(source).value]
              && (r.value[0] == "--class-path" <==> |classPath| > 0)
              && (r.value[if |classPath| > 0 then 2 else 0] == "--module-path" <==> |ModuleDirs(cfg)| > 0)
  {
    var cp :- if |classPath| > 0 then
                var s :- ColonSeparatedList(canon, classPath);
                Success(["--class-path", s])
              else Success([]);
    var mp :- ModulePathArgs(cfg, canon);
    var src :- Resolve(canon, source);
    Success(cp + mp + ["--print-module-deps", "--ignore-missing-deps", src])
  }

  /** The reference argument layout, written with joins. */
  function ReferenceCommand(classPath: seq<string>, modulePath: seq<string>, source: string): seq<string>
  {
    (if |classPath| > 0 then ["--class-path", Join(classPath, ':')] else [])
    + (if |modulePath| > 0 then ["--module-path", Join(modulePath, ':')] else [])
    + ["--print-module-deps", "--ignore-missing-deps", source]
  }

  /** The built command is the reference layout over the canonical paths
      of the class path elements, the module directories and the source. */
  lemma {:induction false} CommandLineMatchesReference(cfg: Config, canon: File -> Option<string>, classPath: seq<File>, source: File)
    requires AllResolve(canon, classPath) && NonEmptyCanonicals(canon, classPath)
    requires AllResolve(canon, ModuleDirs(cfg)) && canon(source).Some?
    ensures CommandLine(cfg, canon, classPath, source)
            == Success(ReferenceCommand(Canonicals(canon, classPath), Canonicals(canon, ModuleDirs(cfg)), canon(source).value))
  {
    ColonSeparatedListIsJoin(canon, classPath);
  }
}

=== FILE: files.dfy ===
/** `java.io.File` as far as the handler uses it: an abstract pathname
    (Unix separator), its last component, and the parent/child constructor. */
module Files {
  import opened Wrappers
  import opened JavaStrings

  /** `File` compares by its pathname, as `java.io.File.equals` does on Unix. */
  datatype File = File(path: string)

  /** `file.getName()`: the text after the last `/`. */
  function Name(f: File): (r: string)
    ensures '/' !in r
    ensures |r| <= |f.path| && f.path[|f.path| - |r|..] == r
    ensures |r| < |f.path| ==> f.path[|f.path| - |r| - 1] == '/'
  {
    var i := LastIndexOf(f.path, '/');
    f.path[i + 1..]
  }

  /** `new File(dir, name)` for a child name without a separator: the root
      (and the empty parent, which Java resolves against the root) gets no
      second `/`. */
  function Child(dir: File, name: string): (r: File)
    ensures |r.path| > |name| && r.path[|r.path| - |name| - 1..] == "/" + name
    ensures r.path[..|r.path| - |name| - 1] == if dir.path == "/" then "" else dir.path
  {
    if dir.path == "" || dir.path == "/" then File("/" + name)
    else File(dir.path + "/" + name)
  }

  /** `new File(dir, name)` where `dir` may be `null`: a null directory
      leaves the name relative to the working directory, any other puts
      the file directly below it. */
  function OutputFile(dir: Option<File>, name: string): (r: File)
    ensures dir.None? ==> r.path == name
    ensures dir.Some? ==> |r.path| > |name| && r.path[|r.path| - |name| - 1..] == "/" + name
    ensures dir.Some? ==> r.path[..|r.path| - |name| - 1] == if dir.value.path == "/" then "" else dir.value.path
  {
    match dir
    case None => File(name)
    case Some(d) => Child(d, name)
  }

  /** Either way the output file is called `name`. */
  lemma {:induction false} OutputFileName(dir: Option<File>, name: string)
    requires '/' !in name
    ensures Name(OutputFile(dir, name)) == name
  {
    match dir
    case None => NameOfBare(name);
    case Some(d) => NameOfChild(d, name);
  }

  /** A path without a separator is its own name. */
  lemma {:induction false} NameOfBare(name: string)
    requires '/' !in name
    ensures Name(File(name)) == name
  {
    assert LastIndexOf(name, '/') == -1;
    assert name[0..] == name;
  }

  /** Distinct names give distinct children of one directory. */
  lemma {:induction false} ChildInjective(dir: File, a: string, b: string)
    requires Child(dir, a) == Child(dir, b)
    ensures a == b
  {
    var p := Child(dir, a).path;
    var k := |p| - |a|;
    assert p[k..] == a;
    assert Child(dir, b).path[k..] == b;
  }

  /** The name of a child is the name it was created with. */
  lemma {:induction false} NameOfChild(dir: File, name: string)
    requires '/' !in name
    ensures Name(Child(dir, name)) == name
  {
    var p := Child(dir, name).path;
    var k := |p| - |name|;
    assert p[k..] == name;
    assert p[k - 1] == '/';
    LastIndexOfIs(p, '/', k - 1);
  }
}

=== FILE: handler_state.dfy ===
/** The state of one `JPackToolHandler` run, its configuration, the inputs
    supplied for each artifact, and the invariants the state keeps. */
module HandlerState {
  import opened Wrappers
  import opened Lists
  import opened Files

  /** The handler's constructor arguments that steer the model. */
  datatype Config = Config(
    jdepsExecutable: string,
    automaticDir: Option<File>,     // outputDirectoryAutomaticJars
    classPathDir: Option<File>,     // outputDirectoryClasspathJars
    modulesDir: Option<File>,       // outputDirectoryModules
    generateAutomaticJdeps: bool,
    generateClassPathJdeps: bool,
    generateModuleJdeps: bool)

  /** The exceptions that abort a handler call. */
  datatype Error =
    | PathError          // a canonical path could not be computed
    | NameWithoutDash    // `substring(0, -1)` on a jar name without `-`
    | ExecError          // running jdeps failed
    | ReadError          // reading the .jdeps output failed
    | ManifestError      // the jar manifest could not be read

  /** The JPMS descriptor of an artifact, when one was found. */
  datatype Descriptor = Descriptor(name: string, automatic: bool)

  /** Opening the jar and reading its manifest. */
  datatype ManifestRead =
    | ManifestUnreadable                          // IOException
    | NoManifest                                  // getManifest() == null
    | Manifest(hasAutomaticModuleName: bool)      // main attributes read

  /** One dependency-graph node as the handler sees it: its identity string,
      its file, its descriptor, and what the file system says about it. */
  datatype Artifact = Artifact(
    node: string,
    file: File,
    descriptor: Option<Descriptor>,
    manifest: ManifestRead,
    regularFile: bool)

  /** One jdeps invocation: executable, arguments, and the output file. */
  datatype Invocation = Invocation(executable: string, args: seq<string>, output: File)

  /** What running jdeps yields: an execution failure, or the lines read
      back from its output file, possibly cut short by a read failure. */
  datatype JdepsRun =
    | ExecFailed
    | Output(lines: seq<string>, readFailed: bool)

  /** The file system and process capabilities the handler relies on:
      `getCanonicalPath` (None when it throws) and the jdeps runner. */
  datatype Env = Env(canon: File -> Option<string>, jdeps: Invocation -> JdepsRun)

  /** The per-node lists filled while parsing one jdeps output. */
  datatype Buckets = Buckets(
    deps: seq<string>,
    automaticDeps: seq<string>,
    linkedDeps: seq<string>,
    linkedSystemDeps: seq<string>)

  const NoBuckets := Buckets([], [], [], [])

  /** The handler's fields. */
  datatype State = State(
    classPathElements: seq<File>,
    warnings: seq<string>,
    errors: seq<string>,
    jarsOnClassPath: seq<string>,
    systemModules: seq<string>,
    linkedSystemModules: seq<string>,
    allModules: seq<string>,
    linkedModules: seq<string>,
    automaticModules: seq<string>,
    nodeStrings: seq<string>,
    allModulesMap: map<string, seq<string>>,
    linkedModulesMap: map<string, seq<string>>,
    automaticModulesMap: map<string, seq<string>>,
    linkedSystemModulesMap: map<string, seq<string>>)

  /** A handler call either returns or throws; in both cases the handler
      object keeps the fields it had at that point. */
  datatype Outcome = Done(st: State) | Aborted(st: State, error: Error)

  /** A freshly constructed handler with the system modules it was given. */
  function Initial(systemModules: seq<string>): State
  {
    State([], [], [], [], systemModules, [], [], [], [], [], map[], map[], map[], map[])
  }

  /** The four per-node map entries of `node`, replaced by `b`. */
  function Store(st: State, node: string, b: Buckets): (r: State)
    ensures r.allModulesMap.Keys == st.allModulesMap.Keys + {node}
    ensures r.automaticModulesMap.Keys == st.automaticModulesMap.Keys + {node}
    ensures r.linkedModulesMap.Keys == st.linkedModulesMap.Keys + {node}
    ensures r.linkedSystemModulesMap.Keys == st.linkedSystemModulesMap.Keys + {node}
  {
    st.(allModulesMap := st.allModulesMap[node := b.deps],
        automaticModulesMap := st.automaticModulesMap[node := b.automaticDeps],
        linkedModulesMap := st.linkedModulesMap[node := b.linkedDeps],
        linkedSystemModulesMap := st.linkedSystemModulesMap[node := b.linkedSystemDeps])
  }

  /** Storing a node's own lists again changes nothing. */
  lemma {:induction false} StoreSame(st: State, node: string)
    requires node in st.allModulesMap && node in st.automaticModulesMap
    requires node in st.linkedModulesMap && node in st.linkedSystemModulesMap
    ensures Store(st, node, NodeLists(st, node)) == st
  {
    assert st.allModulesMap[node := st.allModulesMap[node]] == st.allModulesMap;
    assert st.automaticModulesMap[node := st.automaticModulesMap[node]] == st.automaticModulesMap;
    assert st.linkedModulesMap[node := st.linkedModulesMap[node]] == st.linkedModulesMap;
    assert st.linkedSystemModulesMap[node := st.linkedSystemModulesMap[node]] == st.linkedSystemModulesMap;
  }

  /** The four lists recorded for `node`. */
  function NodeLists(st: State, node: string): Buckets
    requires node in st.allModulesMap && node in st.automaticModulesMap
    requires node in st.linkedModulesMap && node in st.linkedSystemModulesMap
  {
    Buckets(st.allModulesMap[node], st.automaticModulesMap[node],
            st.linkedModulesMap[node], st.linkedSystemModulesMap[node])
  }

  /** Every list field only grew at its end, and the system modules stayed. */
  ghost predicate AppendOnly(st: State, st': State)
  {
    && IsPrefix(st.classPathElements, st'.classPathElements)
    && IsPrefix(st.warnings, st'.warnings)
    && IsPrefix(st.errors, st'.errors)
    && IsPrefix(st.jarsOnClassPath, st'.jarsOnClassPath)
    && st'.systemModules == st.systemModules
    && IsPrefix(st.linkedSystemModules, st'.linkedSystemModules)
    && IsPrefix(st.allModules, st'.allModules)
    && IsPrefix(st.linkedModules, st'.linkedModules)
    && IsPrefix(st.automaticModules, st'.automaticModules)
    && IsPrefix(st.nodeStrings, st'.nodeStrings)
  }

  lemma {:induction false} AppendOnlyRefl(st: State)
    ensures AppendOnly(st, st)
  {
    PrefixRefl(st.classPathElements);
    PrefixRefl(st.warnings);
    PrefixRefl(st.errors);
    PrefixRefl(st.jarsOnClassPath);
    PrefixRefl(st.linkedSystemModules);
    PrefixRefl(st.allModules);
    PrefixRefl(st.linkedModules);
    PrefixRefl(st.automaticModules);
    PrefixRefl(st.nodeStrings);
  }

  lemma {:induction false} AppendOnlyTransitive(a: State, b: State, c: State)
    requires AppendOnly(a, b) && AppendOnly(b, c)
    ensures AppendOnly(a, c)
  {
    PrefixTransitive(a.classPathElements, b.classPathElements, c.classPathElements);
    PrefixTransitive(a.warnings, b.warnings, c.warnings);
    PrefixTransitive(a.errors, b.errors, c.errors);
    PrefixTransitive(a.jarsOnClassPath, b.jarsOnClassPath, c.jarsOnClassPath);
    PrefixTransitive(a.linkedSystemModules, b.linkedSystemModules, c.linkedSystemModules);
    PrefixTransitive(a.allModules, b.allModules, c.allModules);
    PrefixTransitive(a.linkedModules, b.linkedModules, c.linkedModules);
    PrefixTransitive(a.automaticModules, b.automaticModules, c.automaticModules);
    PrefixTransitive(a.nodeStrings, b.nodeStrings, c.nodeStrings);
  }

  /** The three per-node buckets split the node's dependencies into disjoint
      parts, each consistent with the global lists. */
  ghost predicate NodeValid(st: State, b: Buckets)
  {
    && NoDup(b.deps) && NoDup(b.automaticDeps) && NoDup(b.linkedDeps) && NoDup(b.linkedSystemDeps)
    && Elems(b.deps) == Elems(b.linkedSystemDeps) + Elems(b.automaticDeps) + Elems(b.linkedDeps)
    && Elems(b.linkedSystemDeps) !! Elems(b.automaticDeps)
    && Elems(b.linkedSystemDeps) !! Elems(b.linkedDeps)
    && Elems(b.automaticDeps) !! Elems(b.linkedDeps)
    && Elems(b.deps) <= Elems(st.allModules)
    && Elems(b.linkedSystemDeps) <= Elems(st.systemModules) * Elems(st.linkedSystemModules)
    && Elems(b.automaticDeps) <= Elems(st.automaticModules) - Elems(st.systemModules)
    && Elems(b.linkedDeps) <= Elems(st.linkedModules) - Elems(st.systemModules)
  }

  /** `classPathElements[i]` is the copy of the jar `jarsOnClassPath[i]` in
      the class path directory. */
  ghost predicate ClassPathMatches(cfg: Config, st: State)
  {
    && |st.classPathElements| == |st.jarsOnClassPath|
    && (|st.classPathElements| > 0 ==> cfg.classPathDir.Some?)
    && forall i :: 0 <= i < |st.classPathElements| ==>
         cfg.classPathDir.Some? && st.classPathElements[i] == Child(cfg.classPathDir.value, st.jarsOnClassPath[i])
  }

  /** The invariant every handler call keeps. */
  ghost predicate Valid(cfg: Config, st: State)
  {
    && NoDup(st.warnings) && NoDup(st.errors)
    && NoDup(st.allModules) && NoDup(st.linkedModules) && NoDup(st.automaticModules)
    && NoDup(st.linkedSystemModules) && NoDup(st.nodeStrings)
    && NoDup(st.classPathElements) && NoDup(st.jarsOnClassPath)
    && ClassPathMatches(cfg, st)
    && Elems(st.linkedSystemModules) <= Elems(st.systemModules) * Elems(st.allModules)
    && st.automaticModulesMap.Keys == st.allModulesMap.Keys
    && st.linkedModulesMap.Keys == st.allModulesMap.Keys
    && st.linkedSystemModulesMap.Keys == st.allModulesMap.Keys
    && st.allModulesMap.Keys <= Elems(st.nodeStrings)
    && forall n :: n in st.allModulesMap ==> NodeValid(st, NodeLists(st, n))
  }

  lemma {:induction false} InitialValid(cfg: Config, systemModules: seq<string>)
    ensures Valid(cfg, Initial(systemModules))
  {
  }

  /** Node lists stay valid when the global lists only grow. */
  lemma {:induction false} NodeValidGrows(st: State, st': State, b: Buckets)
    requires NodeValid(st, b) && AppendOnly(st, st')
    ensures NodeValid(st', b)
  {
    PrefixElems(st.allModules, st'.allModules);
    PrefixElems(st.linkedSystemModules, st'.linkedSystemModules);
    PrefixElems(st.automaticModules, st'.automaticModules);
    PrefixElems(st.linkedModules, st'.linkedModules);
  }
}

=== FILE: java_strings.dfy ===
/** The few `java.lang.String` operations the handler relies on, with
    their Java semantics written out: `startsWith`, `lastIndexOf(char)`
    and `split` on a one-character separator. */
module JavaStrings {
  import opened Lists

  /** `s.startsWith(p)` */
  predicate StartsWith(s: string, p: string)
  {
    |p| <= |s| && s[..|p|] == p
  }

  /** `s.lastIndexOf(c)`: the index of the last `c`, or -1 when there is none. */
  function LastIndexOf(s: string, c: char): (r: int)
    ensures -1 <= r < |s|
    ensures r == -1 <==> c !in s
    ensures 0 <= r ==> s[r] == c && c !in s[r + 1..]
  {
    if |s| == 0 then -1
    else if s[|s| - 1] == c then |s| - 1
    else
      var r := LastIndexOf(s[..|s| - 1], c);
      LastIndexOfInit(s, c, r);
      r
  }

  /** A last index in all but the final character, which is not `c`, is
      the last index in the whole string. */
  lemma {:induction false} LastIndexOfInit(s: string, c: char, r: int)
    requires |s| > 0 && s[|s| - 1] != c
    requires -1 <= r < |s| - 1
    requires r == -1 <==> c !in s[..|s| - 1]
    requires 0 <= r ==> s[..|s| - 1][r] == c && c !in s[..|s| - 1][r + 1..]
    ensures r == -1 <==> c !in s
    ensures 0 <= r ==> s[r] == c && c !in s[r + 1..]
  {
    InitMembers(s, c);
    if 0 <= r {
      InitTailMembers(s, c, r);
    }
  }

  /** `c` is in a string whose last character is not `c` exactly when it
      is in all but that character. */
  lemma {:induction false} InitMembers(s: string, c: char)
    requires |s| > 0 && s[|s| - 1] != c
    ensures c in s <==> c in s[..|s| - 1]
  {
    assert s == s[..|s| - 1] + [s[|s| - 1]];
  }

  /** The same for the part after position `r`. */
  lemma {:induction false} InitTailMembers(s: string, c: char, r: nat)
    requires r < |s| - 1 && s[|s| - 1] != c
    ensures s[r] == s[..|s| - 1][r]
    ensures c in s[r + 1..] <==> c in s[..|s| - 1][r + 1..]
  {
    assert s[r + 1..] == s[..|s| - 1][r + 1..] + [s[|s| - 1]];
  }

  /** Any position holding `c` with no `c` after it is the last index of `c`. */
  lemma {:induction false} LastIndexOfIs(s: string, c: char, i: int)
    requires 0 <= i < |s| && s[i] == c && c !in s[i + 1..]
    ensures LastIndexOf(s, c) == i
  {
  }

  /** The fields of `s` between occurrences of `c`, empty ones included:
      always one more field than there are separators. */
  function SplitAll(s: string, c: char): (r: seq<string>)
    ensures |r| >= 1
    ensures forall i :: 0 <= i < |r| ==> c !in r[i]
    decreases |s|
  {
    if |s| == 0 then [""]
    else
      var rest := SplitAll(s[1..], c);
      if s[0] == c then [""] + rest
      else [[s[0]] + rest[0]] + rest[1..]
  }

  /** The fields joined back with `sep` between consecutive ones. */
  function Join(parts: seq<string>, sep: char): string
  {
    if |parts| == 0 then ""
    else if |parts| == 1 then parts[0]
    else parts[0] + [sep] + Join(parts[1..], sep)
  }

  /** Removes the trailing empty fields. */
  function DropTrailingEmpty(parts: seq<string>): (r: seq<string>)
    ensures IsPrefix(r, parts)
    ensures |r| == 0 || r[|r| - 1] != ""
    ensures forall i :: |r| <= i < |parts| ==> parts[i] == ""
  {
    if |parts| > 0 && parts[|parts| - 1] == "" then
      var r := DropTrailingEmpty(parts[..|parts| - 1]);
      assert parts[..|r|] == parts[..|parts| - 1][..|r|];
      r
    else parts
  }

  /** `s.split(String.valueOf(c))` for a separator that is not a regex
      metacharacter: a string without the separator is its own single field
      (so the empty string gives `[""]`); otherwise all fields are kept
      except the trailing empty ones. */
  function Split(s: string, c: char): (r: seq<string>)
    ensures c !in s ==> r == [s]
    ensures c in s ==> IsPrefix(r, SplitAll(s, c))
    ensures c in s ==> (|r| == 0 || r[|r| - 1] != "")
    ensures c in s ==> forall i :: |r| <= i < |SplitAll(s, c)| ==> SplitAll(s, c)[i] == ""
    ensures forall i :: 0 <= i < |r| ==> c !in r[i]
  {
    if c !in s then [s]
    else
      var all := SplitAll(s, c);
      var r := DropTrailingEmpty(all);
      assert forall i :: 0 <= i < |r| ==> r[i] == all[i];
      r
  }

  /** Joining all the fields restores the string: splitting loses nothing. */
  lemma {:induction false} JoinSplitAll(s: string, c: char)
    ensures Join(SplitAll(s, c), c) == s
    decreases |s|
  {
    if |s| > 0 {
      var rest := SplitAll(s[1..], c);
      JoinSplitAll(s[1..], c);
      if s[0] == c {
        assert SplitAll(s, c) == [""] + rest;
        assert ([""] + rest)[1..] == rest;
        assert s == [c] + s[1..];
      } else {
        var head := [s[0]] + rest[0];
        assert SplitAll(s, c) == [head] + rest[1..];
        if |rest| == 1 {
          assert s == [s[0]] + s[1..];
        } else {
          assert ([head] + rest[1..])[1..] == rest[1..];
          assert Join(rest, c) == rest[0] + [c] + Join(rest[1..], c);
          assert s == [s[0]] + s[1..];
        }
      }
    }
  }

  /** A field without the separator splits into itself. */
  lemma {:induction false} SplitAllField(p: string, c: char)
    requires c !in p
    ensures SplitAll(p, c) == [p]
    decreases |p|
  {
    if |p| > 0 {
      SplitAllField(p[1..], c);
      assert p == [p[0]] + p[1..];
    }
  }

  /** A field followed by the separator splits off as the first field. */
  lemma {:induction false} SplitAllCons(p: string, c: char, t: string)
    requires c !in p
    ensures SplitAll(p + [c] + t, c) == [p] + SplitAll(t, c)
    decreases |p|
  {
    var s := p + [c] + t;
    if |p| == 0 {
      assert s[1..] == t;
    } else {
      assert s[1..] == p[1..] + [c] + t;
      SplitAllCons(p[1..], c, t);
      assert p == [p[0]] + p[1..];
    }
  }

  /** Splitting the joined fields gives back every field. */
  lemma {:induction false} SplitAllJoin(parts: seq<string>, c: char)
    requires |parts| >= 1
    requires forall i :: 0 <= i < |parts| ==> c !in parts[i]
    ensures SplitAll(Join(parts, c), c) == parts
    decreases |parts|
  {
    if |parts| == 1 {
      SplitAllField(parts[0], c);
    } else {
      SplitAllCons(parts[0], c, Join(parts[1..], c));
      SplitAllJoin(parts[1..], c);
      assert parts == [parts[0]] + parts[1..];
    }
  }

  /** The separator occurs in a join of two or more fields. */
  lemma {:induction false} JoinHasSeparator(parts: seq<string>, c: char)
    requires |parts| >= 2
    ensures c in Join(parts, c)
  {
    assert Join(parts, c)[|parts[0]|] == c;
  }

  /** Round trip for `split`: a list of separator-free fields whose last
      field is non-empty (or that has one field) is what `split` returns
      for its join. */
  lemma {:induction false} SplitJoin(parts: seq<string>, c: char)
    requires |parts| >= 1
    requires forall i :: 0 <= i < |parts| ==> c !in parts[i]
    requires |parts| == 1 || parts[|parts| - 1] != ""
    ensures Split(Join(parts, c), c) == parts
  {
    var s := Join(parts, c);
    if |parts| == 1 {
      assert s == parts[0];
    } else {
      JoinHasSeparator(parts, c);
      SplitAllJoin(parts, c);
    }
  }
}

=== FILE: lists.dfy ===
/** Insertion-ordered lists with insert-if-absent, the discipline every
    list of the handler follows (`if (!l.contains(x)) l.add(x)`). */
module Lists {

  /** The elements of a list, as a set. */
  function Elems<T>(s: seq<T>): set<T>
  {
    set x | x in s
  }

  /** No element occurs twice. */
  ghost predicate NoDup<T>(s: seq<T>)
  {
    forall i, j :: 0 <= i < j < |s| ==> s[i] != s[j]
  }

  /** `s` is an initial segment of `t`: `t` was obtained by appending only. */
  ghost predicate IsPrefix<T>(s: seq<T>, t: seq<T>)
  {
    |s| <= |t| && t[..|s|] == s
  }

  lemma {:induction false} PrefixTransitive<T>(a: seq<T>, b: seq<T>, c: seq<T>)
    requires IsPrefix(a, b) && IsPrefix(b, c)
    ensures IsPrefix(a, c)
  {
    assert c[..|a|] == c[..|b|][..|a|];
  }

  lemma {:induction false} PrefixRefl<T>(s: seq<T>)
    ensures IsPrefix(s, s)
  {
    assert s[..|s|] == s;
  }

  lemma {:induction false} PrefixElems<T>(s: seq<T>, t: seq<T>)
    requires IsPrefix(s, t)
    ensures Elems(s) <= Elems(t)
  {
    forall x | x in s
      ensures x in t
    {
      var i :| 0 <= i < |s| && s[i] == x;
      assert t[i] == t[..|s|][i];
    }
  }

  /** `if (!xs.contains(x)) xs.add(x)` */
  function Insert<T(==)>(xs: seq<T>, x: T): (r: seq<T>)
    ensures x in r
    ensures Elems(r) == Elems(xs) + {x}
    ensures IsPrefix(xs, r)
    ensures |r| <= |xs| + 1
    ensures x in xs ==> r == xs
    ensures NoDup(xs) ==> NoDup(r)
  {
    if x in xs then xs else xs + [x]
  }

  /** Inserts every element of `ys`, in order, into `xs` if absent. */
  function InsertAll<T(==)>(xs: seq<T>, ys: seq<T>): (r: seq<T>)
    ensures IsPrefix(xs, r)
    ensures Elems(r) == Elems(xs) + Elems(ys)
    decreases |ys|
  {
    if |ys| == 0 then xs
    else
      var xs' := Insert(xs, ys[0]);
      var r := InsertAll(xs', ys[1..]);
      PrefixTransitive(xs, xs', r);
      ElemsCons(ys);
      r
  }

  lemma {:induction false} ElemsCons<T>(ys: seq<T>)
    requires |ys| > 0
    ensures Elems(ys) == {ys[0]} + Elems(ys[1..])
  {
    assert ys == [ys[0]] + ys[1..];
  }

  /** What `InsertAll` holds, element by element. */
  lemma {:induction false} InsertAllHas<T>(xs: seq<T>, ys: seq<T>, x: T)
    ensures x in InsertAll(xs, ys) <==> x in xs || x in ys
  {
    assert x in Elems(InsertAll(xs, ys)) <==> x in Elems(xs) + Elems(ys);
  }

  lemma {:induction false} InsertAllNoDup<T>(xs: seq<T>, ys: seq<T>)
    requires NoDup(xs)
    ensures NoDup(InsertAll(xs, ys))
    decreases |ys|
  {
    if |ys| > 0 {
      InsertAllNoDup(Insert(xs, ys[0]), ys[1..]);
    }
  }

  /** Inserting `a` then `b` is inserting `a + b`. */
  lemma {:induction false} InsertAllConcat<T>(xs: seq<T>, a: seq<T>, b: seq<T>)
    ensures InsertAll(xs, a + b) == InsertAll(InsertAll(xs, a), b)
    decreases |a|
  {
    if |a| == 0 {
      assert a + b == b;
    } else {
      assert (a + b)[0] == a[0];
      assert (a + b)[1..] == a[1..] + b;
      InsertAllConcat(Insert(xs, a[0]), a[1..], b);
    }
  }

  /** Inserting elements that are all present already changes nothing. */
  lemma {:induction false} InsertAllAbsorbs<T>(xs: seq<T>, ys: seq<T>)
    requires Elems(ys) <= Elems(xs)
    ensures InsertAll(xs, ys) == xs
    decreases |ys|
  {
    if |ys| > 0 {
      assert ys[0] in Elems(ys);
      assert Elems(ys[1..]) <= Elems(ys) by {
        forall y | y in ys[1..] ensures y in ys { }
      }
      InsertAllAbsorbs(xs, ys[1..]);
    }
  }

  /** Inserting the same elements twice is inserting them once. */
  lemma {:induction false} InsertAllIdempotent<T>(xs: seq<T>, ys: seq<T>)
    ensures InsertAll(InsertAll(xs, ys), ys) == InsertAll(xs, ys)
  {
    InsertAllAbsorbs(InsertAll(xs, ys), ys);
  }

  /** Distinct elements none of which is present yet are appended as they are. */
  lemma {:induction false} InsertAllFresh<T>(xs: seq<T>, ys: seq<T>)
    requires NoDup(ys)
    requires forall y :: y in ys ==> y !in xs
    ensures InsertAll(xs, ys) == xs + ys
    decreases |ys|
  {
    if |ys| > 0 {
      var xs' := xs + [ys[0]];
      assert Insert(xs, ys[0]) == xs';
      var tail := ys[1..];
      assert NoDup(tail) by {
        forall i, j | 0 <= i < j < |tail| ensures tail[i] != tail[j] {
          assert tail[i] == ys[i + 1] && tail[j] == ys[j + 1];
        }
      }
      assert forall y :: y in tail ==> y !in xs' by {
        forall y | y in tail ensures y !in xs' {
          var k :| 0 <= k < |tail| && tail[k] == y;
          assert ys[k + 1] == y;
        }
      }
      InsertAllFresh(xs', tail);
      AppendHead(xs, ys);
    }
  }

  lemma {:induction false} AppendHead<T>(xs: seq<T>, ys: seq<T>)
    requires |ys| > 0
    ensures xs + [ys[0]] + ys[1..] == xs + ys
  {
    assert ys == [ys[0]] + ys[1..];
  }
}

=== FILE: naming.dfy ===
/** The name of the file jdeps output is written to: the jar's file name
    cut at its last `-`, plus `.jdeps` (`name.substring(0, name.lastIndexOf('-'))`). */
module JdepsNaming {
  import opened Wrappers
  import opened Lists
  import opened JavaStrings
  import opened HandlerState

  const Extension := ".jdeps"

  /** The output file name for a jar named `jarName`; a name without `-`
      makes `substring(0, -1)` throw. */
  function JdepsFileName(jarName: string): (r: Result<string, Error>)
    ensures r.Failure? <==> '-' !in jarName
    ensures r.Failure? ==> r.error == NameWithoutDash
    ensures r.Success? ==>
              && |r.value| >= |Extension|
              && r.value[|r.value| - |Extension|..] == Extension
              && var stem := r.value[..|r.value| - |Extension|];
                 IsPrefix(stem + "-", jarName) && '-' !in jarName[|stem| + 1..]
  {
    var i := LastIndexOf(jarName, '-');
    if i < 0 then Failure(NameWithoutDash)
    else
      var r := jarName[..i] + Extension;
      assert r[..|r| - |Extension|] == jarName[..i];
      assert jarName[..i + 1] == jarName[..i] + "-";
      Success(r)
  }

  /** A versioned jar name `stem-version` gives `stem.jdeps` whenever the
      version part holds no `-`, whatever dashes the stem holds. */
  lemma {:induction false} JdepsFileNameOfVersioned(stem: string, version: string)
    requires '-' !in version
    ensures JdepsFileName(stem + "-" + version) == Success(stem + Extension)
  {
    var name := stem + "-" + version;
    assert name[|stem| + 1..] == version;
    LastIndexOfIs(name, '-', |stem|);
    assert name[..|stem|] == stem;
  }
}

=== FILE: parser.dfy ===
/** The line loop of `generateJdeps`: routing the lines jdeps printed into
    warnings, errors and module names, and placing each module name in the
    per-node and global lists. */
module JdepsParser {
  import opened Lists
  import opened JavaStrings
  import opened HandlerState

  const WarningMarker := "Warning:"
  const ErrorMarker := "Error:"

  predicate IsWarning(line: string)
  {
    StartsWith(line, WarningMarker)
  }

  /** The warning check comes first, so a line is at most one kind. */
  predicate IsError(line: string)
  {
    !IsWarning(line) && StartsWith(line, ErrorMarker)
  }

  /** A line that is neither a warning nor an error lists module names. */
  predicate IsData(line: string)
  {
    !IsWarning(line) && !IsError(line)
  }

  /** Where a dependency goes: system modules first, then modules already
      known to be automatic, and every other name is a linked module. */
  datatype Bucket = SystemDep | AutomaticDep | LinkedDep

  function BucketOf(dep: string, systemModules: seq<string>, automaticModules: seq<string>): (k: Bucket)
    ensures k == SystemDep <==> dep in systemModules
    ensures k == AutomaticDep <==> dep !in systemModules && dep in automaticModules
    ensures k == LinkedDep <==> dep !in systemModules && dep !in automaticModules
  {
    if dep in systemModules then SystemDep
    else if dep in automaticModules then AutomaticDep
    else LinkedDep
  }

  /** The names, in order, that belong in bucket `k`. */
  function InBucket(names: seq<string>, sys: seq<string>, auto: seq<string>, k: Bucket): (r: seq<string>)
    ensures forall n :: n in r <==> n in names && BucketOf(n, sys, auto) == k
  {
    if |names| == 0 then []
    else
      assert forall n :: n in names <==> n == names[0] || n in names[1..] by {
        assert names == [names[0]] + names[1..];
      }
      (if BucketOf(names[0], sys, auto) == k then [names[0]] else []) + InBucket(names[1..], sys, auto, k)
  }

  /** The three buckets split the names: system modules, automatic modules
      that are not system modules, and all the rest. */
  lemma {:induction false} InBucketPartition(names: seq<string>, sys: seq<string>, auto: seq<string>)
    ensures Elems(InBucket(names, sys, auto, SystemDep)) == Elems(names) * Elems(sys)
    ensures Elems(InBucket(names, sys, auto, AutomaticDep)) == Elems(names) * Elems(auto) - Elems(sys)
    ensures Elems(InBucket(names, sys, auto, LinkedDep)) == Elems(names) - Elems(sys) - Elems(auto)
  {
  }

  lemma {:induction false} InBucketConcat(a: seq<string>, b: seq<string>, sys: seq<string>, auto: seq<string>, k: Bucket)
    ensures InBucket(a + b, sys, auto, k) == InBucket(a, sys, auto, k) + InBucket(b, sys, auto, k)
    decreases |a|
  {
    if |a| == 0 {
      assert a + b == b;
    } else {
      assert (a + b)[0] == a[0];
      assert (a + b)[1..] == a[1..] + b;
      InBucketConcat(a[1..], b, sys, auto, k);
    }
  }

  /** The warning lines, in order. */
  function WarningLines(lines: seq<string>): (r: seq<string>)
    ensures forall l :: l in r <==> l in lines && IsWarning(l)
  {
    if |lines| == 0 then []
    else
      assert forall l :: l in lines <==> l == lines[0] || l in lines[1..] by {
        assert lines == [lines[0]] + lines[1..];
      }
      (if IsWarning(lines[0]) then [lines[0]] else []) + WarningLines(lines[1..])
  }

  /** The error lines, in order. */
  function ErrorLines(lines: seq<string>): (r: seq<string>)
    ensures forall l :: l in r <==> l in lines && IsError(l)
  {
    if |lines| == 0 then []
    else
      assert forall l :: l in lines <==> l == lines[0] || l in lines[1..] by {
        assert lines == [lines[0]] + lines[1..];
      }
      (if IsError(lines[0]) then [lines[0]] else []) + ErrorLines(lines[1..])
  }

  /** The module names of the data lines: each line split on `,`, in order. */
  function Names(lines: seq<string>): (r: seq<string>)
    ensures forall i :: 0 <= i < |r| ==> ',' !in r[i]
    ensures (forall l :: l in lines ==> !IsData(l)) ==> r == []
  {
    if |lines| == 0 then []
    else (if IsData(lines[0]) then Split(lines[0], ',') else []) + Names(lines[1..])
  }

  /** A name is among `Names(lines)` exactly when some data line holds it
      as one of its `,`-separated fields. */
  lemma {:induction false} NamesHas(lines: seq<string>)
    ensures forall l, d :: l in lines && IsData(l) && d in Split(l, ',') ==> d in Names(lines)
    ensures forall d :: d in Names(lines) ==> exists l :: l in lines && IsData(l) && d in Split(l, ',')
    decreases |lines|
  {
    if |lines| > 0 {
      NamesHas(lines[1..]);
      assert forall l :: l in lines <==> l == lines[0] || l in lines[1..] by {
        assert lines == [lines[0]] + lines[1..];
      }
    }
  }

  /** The handler state together with the four lists of the node being parsed. */
  datatype Acc = Acc(st: State, b: Buckets)

  /** Inserts `dep` when it belongs in bucket `k` for the modules of `st`. */
  function InsertIf(xs: seq<string>, dep: string, st: State, k: Bucket): seq<string>
  {
    if BucketOf(dep, st.systemModules, st.automaticModules) == k then Insert(xs, dep) else xs
  }

  lemma {:induction false} InsertIfStep(xs: seq<string>, dep: string, rest: seq<string>, st: State, k: Bucket)
    ensures var sys := st.systemModules;
            var auto := st.automaticModules;
            InsertAll(InsertIf(xs, dep, st, k), InBucket(rest, sys, auto, k))
            == InsertAll(xs, InBucket([dep] + rest, sys, auto, k))
  {
    var sys := st.systemModules;
    var auto := st.automaticModules;
    var ys := [dep] + rest;
    assert ys[0] == dep && ys[1..] == rest;
    var tail := InBucket(rest, sys, auto, k);
    if BucketOf(dep, sys, auto) == k {
      assert InBucket(ys, sys, auto, k) == [dep] + tail;
      assert ([dep] + tail)[0] == dep && ([dep] + tail)[1..] == tail;
    } else {
      assert InBucket(ys, sys, auto, k) == [] + tail == tail;
    }
  }

  lemma {:induction false} InsertAllStep(xs: seq<string>, dep: string, rest: seq<string>)
    ensures InsertAll(Insert(xs, dep), rest) == InsertAll(xs, [dep] + rest)
  {
    assert ([dep] + rest)[0] == dep && ([dep] + rest)[1..] == rest;
  }

  /** One module name of a data line (the body of the inner `for`). */
  function AddDep(acc: Acc, dep: string): (r: Acc)
    ensures r.st == acc.st.(allModules := r.st.allModules,
                            linkedModules := r.st.linkedModules,
                            linkedSystemModules := r.st.linkedSystemModules)
    ensures r.st.allModules == Insert(acc.st.allModules, dep)
    ensures r.b.deps == Insert(acc.b.deps, dep)
    ensures r.st.linkedSystemModules == InsertIf(acc.st.linkedSystemModules, dep, acc.st, SystemDep)
    ensures r.st.linkedModules == InsertIf(acc.st.linkedModules, dep, acc.st, LinkedDep)
    ensures r.b.linkedSystemDeps == InsertIf(acc.b.linkedSystemDeps, dep, acc.st, SystemDep)
    ensures r.b.automaticDeps == InsertIf(acc.b.automaticDeps, dep, acc.st, AutomaticDep)
    ensures r.b.linkedDeps == InsertIf(acc.b.linkedDeps, dep, acc.st, LinkedDep)
  {
    var st := acc.st;
    var b := acc.b;
    var st1 := st.(allModules := Insert(st.allModules, dep));
    var b1 := b.(deps := Insert(b.deps, dep));
    if dep in st.systemModules then
      Acc(st1.(linkedSystemModules := Insert(st.linkedSystemModules, dep)),
          b1.(linkedSystemDeps := Insert(b.linkedSystemDeps, dep)))
    else if dep in st.automaticModules then
      Acc(st1, b1.(automaticDeps := Insert(b.automaticDeps, dep)))
    else
      Acc(st1.(linkedModules := Insert(st.linkedModules, dep)),
          b1.(linkedDeps := Insert(b.linkedDeps, dep)))
  }

  /** All module names of one data line, in order: every name goes to the
      node's and the global "all" lists and to exactly the lists of its bucket. */
  function AddDeps(acc: Acc, deps: seq<string>): (r: Acc)
    ensures r.st == acc.st.(allModules := r.st.allModules,
                            linkedModules := r.st.linkedModules,
                            linkedSystemModules := r.st.linkedSystemModules)
    ensures r.st.allModules == InsertAll(acc.st.allModules, deps)
    ensures r.st.linkedSystemModules
            == InsertAll(acc.st.linkedSystemModules, InBucket(deps, acc.st.systemModules, acc.st.automaticModules, SystemDep))
    ensures r.st.linkedModules
            == InsertAll(acc.st.linkedModules, InBucket(deps, acc.st.systemModules, acc.st.automaticModules, LinkedDep))
    ensures r.b.deps == InsertAll(acc.b.deps, deps)
    ensures r.b.linkedSystemDeps
            == InsertAll(acc.b.linkedSystemDeps, InBucket(deps, acc.st.systemModules, acc.st.automaticModules, SystemDep))
    ensures r.b.automaticDeps
            == InsertAll(acc.b.automaticDeps, InBucket(deps, acc.st.systemModules, acc.st.automaticModules, AutomaticDep))
    ensures r.b.linkedDeps
            == InsertAll(acc.b.linkedDeps, InBucket(deps, acc.st.systemModules, acc.st.automaticModules, LinkedDep))
    decreases |deps|
  {
    if |deps| == 0 then acc
    else
      var d := deps[0];
      var rest := deps[1..];
      assert deps == [d] + rest;
      InsertAllStep(acc.st.allModules, d, rest);
      InsertAllStep(acc.b.deps, d, rest);
      InsertIfStep(acc.st.linkedSystemModules, d, rest, acc.st, SystemDep);
      InsertIfStep(acc.st.linkedModules, d, rest, acc.st, LinkedDep);
      InsertIfStep(acc.b.linkedSystemDeps, d, rest, acc.st, SystemDep);
      InsertIfStep(acc.b.automaticDeps, d, rest, acc.st, AutomaticDep);
      InsertIfStep(acc.b.linkedDeps, d, rest, acc.st, LinkedDep);
      AddDeps(AddDep(acc, d), rest)
  }

  /** One line of jdeps output: a warning, an error, or a list of module
      names; each list it touches gains exactly that line's entries. */
  function ParseLine(acc: Acc, line: string): (r: Acc)
    ensures r.st == acc.st.(warnings := r.st.warnings,
                            errors := r.st.errors,
                            allModules := r.st.allModules,
                            linkedModules := r.st.linkedModules,
                            linkedSystemModules := r.st.linkedSystemModules)
    ensures r.st.warnings == InsertAll(acc.st.warnings, WarningLines([line]))
    ensures r.st.errors == InsertAll(acc.st.errors, ErrorLines([line]))
    ensures r.st.allModules == InsertAll(acc.st.allModules, Names([line]))
    ensures r.st.linkedSystemModules
            == InsertAll(acc.st.linkedSystemModules, InBucket(Names([line]), acc.st.systemModules, acc.st.automaticModules, SystemDep))
    ensures r.st.linkedModules
            == InsertAll(acc.st.linkedModules, InBucket(Names([line]), acc.st.systemModules, acc.st.automaticModules, LinkedDep))
    ensures r.b.deps == InsertAll(acc.b.deps, Names([line]))
    ensures r.b.linkedSystemDeps
            == InsertAll(acc.b.linkedSystemDeps, InBucket(Names([line]), acc.st.systemModules, acc.st.automaticModules, SystemDep))
    ensures r.b.automaticDeps
            == InsertAll(acc.b.automaticDeps, InBucket(Names([line]), acc.st.systemModules, acc.st.automaticModules, AutomaticDep))
    ensures r.b.linkedDeps
            == InsertAll(acc.b.linkedDeps, InBucket(Names([line]), acc.st.systemModules, acc.st.automaticModules, LinkedDep))
  {
    SingleLine(line);
    if StartsWith(line, WarningMarker) then
      InsertAllOne(acc.st.warnings, line);
      Acc(acc.st.(warnings := Insert(acc.st.warnings, line)), acc.b)
    else if StartsWith(line, ErrorMarker) then
      InsertAllOne(acc.st.errors, line);
      Acc(acc.st.(errors := Insert(acc.st.errors, line)), acc.b)
    else
      AddDeps(acc, Split(line, ','))
  }

  /** What a single line contributes. */
  lemma {:induction false} SingleLine(line: string)
    ensures WarningLines([line]) == if IsWarning(line) then [line] else []
    ensures ErrorLines([line]) == if IsError(line) then [line] else []
    ensures Names([line]) == if IsData(line) then Split(line, ',') else []
  {
    assert [line][0] == line && [line][1..] == [];
    assert WarningLines([line]) == (if IsWarning(line) then [line] else []) + WarningLines([]);
    assert ErrorLines([line]) == (if IsError(line) then [line] else []) + ErrorLines([]);
    assert Names([line]) == (if IsData(line) then Split(line, ',') else []) + Names([]);
  }

  lemma {:induction false} InsertAllOne(xs: seq<string>, x: string)
    ensures InsertAll(xs, [x]) == Insert(xs, x)
  {
    assert [x][0] == x && [x][1..] == [];
  }

  lemma {:induction false} WarningsStep(xs: seq<string>, line: string, rest: seq<string>)
    ensures InsertAll(InsertAll(xs, WarningLines([line])), WarningLines(rest)) == InsertAll(xs, WarningLines([line] + rest))
  {
    var lines := [line] + rest;
    assert lines[0] == line && lines[1..] == rest && [line][1..] == [];
    assert WarningLines(lines) == WarningLines([line]) + WarningLines(rest);
    InsertAllConcat(xs, WarningLines([line]), WarningLines(rest));
  }

  lemma {:induction false} ErrorsStep(xs: seq<string>, line: string, rest: seq<string>)
    ensures InsertAll(InsertAll(xs, ErrorLines([line])), ErrorLines(rest)) == InsertAll(xs, ErrorLines([line] + rest))
  {
    var lines := [line] + rest;
    assert lines[0] == line && lines[1..] == rest && [line][1..] == [];
    assert ErrorLines(lines) == ErrorLines([line]) + ErrorLines(rest);
    InsertAllConcat(xs, ErrorLines([line]), ErrorLines(rest));
  }

  lemma {:induction false} NamesConcat(line: string, rest: seq<string>)
    ensures Names([line] + rest) == Names([line]) + Names(rest)
  {
    var lines := [line] + rest;
    assert lines[0] == line && lines[1..] == rest && [line][1..] == [];
  }

  lemma {:induction false} NamesStep(xs: seq<string>, line: string, rest: seq<string>)
    ensures InsertAll(InsertAll(xs, Names([line])), Names(rest)) == InsertAll(xs, Names([line] + rest))
  {
    NamesConcat(line, rest);
    InsertAllConcat(xs, Names([line]), Names(rest));
  }

  lemma {:induction false} BucketStep(xs: seq<string>, line: string, rest: seq<string>, sys: seq<string>, auto: seq<string>, k: Bucket)
    ensures InsertAll(InsertAll(xs, InBucket(Names([line]), sys, auto, k)), InBucket(Names(rest), sys, auto, k))
            == InsertAll(xs, InBucket(Names([line] + rest), sys, auto, k))
  {
    NamesConcat(line, rest);
    InBucketConcat(Names([line]), Names(rest), sys, auto, k);
    InsertAllConcat(xs, InBucket(Names([line]), sys, auto, k), InBucket(Names(rest), sys, auto, k));
  }

  /** What a parse of `lines` from `acc` yields, field by field: every list
      the loop touches is its old contents followed by the new entries of
      its kind, in order of first appearance, and nothing else changes. */
  ghost predicate ParsedFrom(acc: Acc, r: Acc, lines: seq<string>)
  {
    var sys := acc.st.systemModules;
    var auto := acc.st.automaticModules;
    var names := Names(lines);
    && r.st == acc.st.(warnings := r.st.warnings,
                       errors := r.st.errors,
                       allModules := r.st.allModules,
                       linkedModules := r.st.linkedModules,
                       linkedSystemModules := r.st.linkedSystemModules)
    && r.st.warnings == InsertAll(acc.st.warnings, WarningLines(lines))
    && r.st.errors == InsertAll(acc.st.errors, ErrorLines(lines))
    && r.st.allModules == InsertAll(acc.st.allModules, names)
    && r.st.linkedSystemModules == InsertAll(acc.st.linkedSystemModules, InBucket(names, sys, auto, SystemDep))
    && r.st.linkedModules == InsertAll(acc.st.linkedModules, InBucket(names, sys, auto, LinkedDep))
    && r.b.deps == InsertAll(acc.b.deps, names)
    && r.b.linkedSystemDeps == InsertAll(acc.b.linkedSystemDeps, InBucket(names, sys, auto, SystemDep))
    && r.b.automaticDeps == InsertAll(acc.b.automaticDeps, InBucket(names, sys, auto, AutomaticDep))
    && r.b.linkedDeps == InsertAll(acc.b.linkedDeps, InBucket(names, sys, auto, LinkedDep))
  }

  /** The `while ((line = br.readLine()) != null)` loop over the lines read.
      Each list the loop touches ends up as its old contents followed by the
      new entries of its kind, in order of first appearance; nothing else in
      the state changes. */
  function ParseLines(acc: Acc, lines: seq<string>): (r: Acc)
    ensures ParsedFrom(acc, r, lines)
    decreases |lines|
  {
    if |lines| == 0 then acc
    else
      var line := lines[0];
      var rest := lines[1..];
      assert lines == [line] + rest;
      var sys := acc.st.systemModules;
      var auto := acc.st.automaticModules;
      WarningsStep(acc.st.warnings, line, rest);
      ErrorsStep(acc.st.errors, line, rest);
      NamesStep(acc.st.allModules, line, rest);
      NamesStep(acc.b.deps, line, rest);
      BucketStep(acc.st.linkedSystemModules, line, rest, sys, auto, SystemDep);
      BucketStep(acc.st.linkedModules, line, rest, sys, auto, LinkedDep);
      BucketStep(acc.b.linkedSystemDeps, line, rest, sys, auto, SystemDep);
      BucketStep(acc.b.automaticDeps, line, rest, sys, auto, AutomaticDep);
      BucketStep(acc.b.linkedDeps, line, rest, sys, auto, LinkedDep);
      ParseLines(ParseLine(acc, line), rest)
  }

  /** Element by element: a list built by `InsertAll` from `xs` and `ys`. */
  lemma {:induction false} InsertAllMembers(r: seq<string>, xs: seq<string>, ys: seq<string>)
    requires r == InsertAll(xs, ys)
    ensures forall x :: x in r <==> x in xs || x in ys
  {
    forall x
      ensures x in r <==> x in xs || x in ys
    {
      InsertAllHas(xs, ys, x);
    }
  }

  /** Routing: a warning line ends up in `warnings`, an error line in
      `errors`, and every name of a data line in the node's and the global
      "all" lists. */
  lemma {:induction false} ParseLinesRouting(acc: Acc, lines: seq<string>)
    ensures var r := ParseLines(acc, lines);
            && (forall l :: l in lines && IsWarning(l) ==> l in r.st.warnings)
            && (forall l :: l in lines && IsError(l) ==> l in r.st.errors)
            && (forall l, d :: l in lines && IsData(l) && d in Split(l, ',') ==> d in r.b.deps && d in r.st.allModules)
  {
    var r := ParseLines(acc, lines);
    Routed(acc, r, lines);
    NamesHas(lines);
  }

  /** ... and nothing else: `warnings` gains only warning lines, `errors`
      only error lines, and the "all" lists only names of data lines. */
  lemma {:induction false} ParseLinesRoutesNothingElse(acc: Acc, lines: seq<string>)
    ensures var r := ParseLines(acc, lines);
            && (forall w :: w in r.st.warnings ==> w in acc.st.warnings || (w in lines && IsWarning(w)))
            && (forall e :: e in r.st.errors ==> e in acc.st.errors || (e in lines && IsError(e)))
            && (forall d :: d in r.st.allModules ==> d in acc.st.allModules || d in Names(lines))
            && (forall d :: d in r.b.deps ==> d in acc.b.deps || d in Names(lines))
  {
    var r := ParseLines(acc, lines);
    Routed(acc, r, lines);
  }

  /** Membership in the lists a parse fills, from their `InsertAll` form. */
  lemma {:induction false} Routed(acc: Acc, r: Acc, lines: seq<string>)
    requires ParsedFrom(acc, r, lines)
    ensures forall w :: w in r.st.warnings <==> w in acc.st.warnings || (w in lines && IsWarning(w))
    ensures forall e :: e in r.st.errors <==> e in acc.st.errors || (e in lines && IsError(e))
    ensures forall d :: d in r.st.allModules <==> d in acc.st.allModules || d in Names(lines)
    ensures forall d :: d in r.b.deps <==> d in acc.b.deps || d in Names(lines)
  {
    InsertAllMembers(r.st.warnings, acc.st.warnings, WarningLines(lines));
    InsertAllMembers(r.st.errors, acc.st.errors, ErrorLines(lines));
    InsertAllMembers(r.st.allModules, acc.st.allModules, Names(lines));
    InsertAllMembers(r.b.deps, acc.b.deps, Names(lines));
  }

  /** The warning, error and global module lists stay free of duplicates. */
  lemma {:induction false} ParseLinesNoDup(acc: Acc, lines: seq<string>)
    requires NoDup(acc.st.warnings) && NoDup(acc.st.errors) && NoDup(acc.st.allModules)
    requires NoDup(acc.st.linkedModules) && NoDup(acc.st.linkedSystemModules)
    ensures var r := ParseLines(acc, lines);
            && NoDup(r.st.warnings) && NoDup(r.st.errors) && NoDup(r.st.allModules)
            && NoDup(r.st.linkedModules) && NoDup(r.st.linkedSystemModules)
  {
    ParsedNoDup(acc, ParseLines(acc, lines), lines);
  }

  lemma {:induction false} ParsedNoDup(acc: Acc, r: Acc, lines: seq<string>)
    requires ParsedFrom(acc, r, lines)
    requires NoDup(acc.st.warnings) && NoDup(acc.st.errors) && NoDup(acc.st.allModules)
    requires NoDup(acc.st.linkedModules) && NoDup(acc.st.linkedSystemModules)
    ensures NoDup(r.st.warnings) && NoDup(r.st.errors) && NoDup(r.st.allModules)
    ensures NoDup(r.st.linkedModules) && NoDup(r.st.linkedSystemModules)
  {
    var sys := acc.st.systemModules;
    var auto := acc.st.automaticModules;
    InsertAllNoDup(acc.st.warnings, WarningLines(lines));
    InsertAllNoDup(acc.st.errors, ErrorLines(lines));
    InsertAllNoDup(acc.st.allModules, Names(lines));
    InsertAllNoDup(acc.st.linkedModules, InBucket(Names(lines), sys, auto, LinkedDep));
    InsertAllNoDup(acc.st.linkedSystemModules, InBucket(Names(lines), sys, auto, SystemDep));
  }

  /** Exclusive bucketing: parsed from fresh lists, every name of the node
      sits in exactly one of its three buckets, the node lists hold no
      duplicates, and each bucket agrees with the global lists. */
  lemma {:induction false} ParseLinesNodeValid(st: State, lines: seq<string>)
    ensures var r := ParseLines(Acc(st, NoBuckets), lines);
            NodeValid(r.st, r.b)
  {
    FreshNodeValid(st, ParseLines(Acc(st, NoBuckets), lines), lines);
  }

  /** `NodeValid` for the node lists of a parse from fresh lists. */
  lemma {:induction false} FreshNodeValid(st: State, r: Acc, lines: seq<string>)
    requires ParsedFrom(Acc(st, NoBuckets), r, lines)
    ensures NodeValid(r.st, r.b)
  {
    var sys := st.systemModules;
    var auto := st.automaticModules;
    var names := Names(lines);
    InsertAllMembers(r.st.allModules, st.allModules, names);
    InsertAllMembers(r.st.linkedSystemModules, st.linkedSystemModules, InBucket(names, sys, auto, SystemDep));
    InsertAllMembers(r.st.linkedModules, st.linkedModules, InBucket(names, sys, auto, LinkedDep));
    assert r.b == FreshBuckets(names, sys, auto);
    FreshBucketsValid(r.st, names);
  }

  /** The node lists built from fresh lists for `names`. */
  function FreshBuckets(names: seq<string>, sys: seq<string>, auto: seq<string>): Buckets
  {
    Buckets(InsertAll([], names),
            InsertAll([], InBucket(names, sys, auto, AutomaticDep)),
            InsertAll([], InBucket(names, sys, auto, LinkedDep)),
            InsertAll([], InBucket(names, sys, auto, SystemDep)))
  }

  lemma {:induction false} FreshBucketsValid(st: State, names: seq<string>)
    requires forall d :: d in names ==> d in st.allModules
    requires forall d :: d in InBucket(names, st.systemModules, st.automaticModules, SystemDep) ==> d in st.linkedSystemModules
    requires forall d :: d in InBucket(names, st.systemModules, st.automaticModules, LinkedDep) ==> d in st.linkedModules
    ensures NodeValid(st, FreshBuckets(names, st.systemModules, st.automaticModules))
  {
    var sys := st.systemModules;
    var auto := st.automaticModules;
    var b := FreshBuckets(names, sys, auto);
    InsertAllNoDup([], names);
    InsertAllNoDup([], InBucket(names, sys, auto, SystemDep));
    InsertAllNoDup([], InBucket(names, sys, auto, AutomaticDep));
    InsertAllNoDup([], InBucket(names, sys, auto, LinkedDep));
    InsertAllMembers(b.deps, [], names);
    InsertAllMembers(b.linkedSystemDeps, [], InBucket(names, sys, auto, SystemDep));
    InsertAllMembers(b.automaticDeps, [], InBucket(names, sys, auto, AutomaticDep));
    InsertAllMembers(b.linkedDeps, [], InBucket(names, sys, auto, LinkedDep));
    BucketSets(st, b, names);
  }

  /** The set relations of `NodeValid` from the membership of each list. */
  lemma {:induction false} BucketSets(st: State, b: Buckets, names: seq<string>)
    requires forall x :: x in b.deps <==> x in names
    requires forall x :: x in b.linkedSystemDeps <==> x in names && x in st.systemModules
    requires forall x :: x in b.automaticDeps <==> x in names && x !in st.systemModules && x in st.automaticModules
    requires forall x :: x in b.linkedDeps <==> x in names && x !in st.systemModules && x !in st.automaticModules
    requires forall d :: d in names ==> d in st.allModules
    requires forall d :: d in b.linkedSystemDeps ==> d in st.linkedSystemModules
    requires forall d :: d in b.linkedDeps ==> d in st.linkedModules
    ensures Elems(b.deps) == Elems(b.linkedSystemDeps) + Elems(b.automaticDeps) + Elems(b.linkedDeps)
    ensures Elems(b.linkedSystemDeps) !! Elems(b.automaticDeps)
    ensures Elems(b.linkedSystemDeps) !! Elems(b.linkedDeps)
    ensures Elems(b.automaticDeps) !! Elems(b.linkedDeps)
    ensures Elems(b.deps) <= Elems(st.allModules)
    ensures Elems(b.linkedSystemDeps) <= Elems(st.systemModules) * Elems(st.linkedSystemModules)
    ensures Elems(b.automaticDeps) <= Elems(st.automaticModules) - Elems(st.systemModules)
    ensures Elems(b.linkedDeps) <= Elems(st.linkedModules) - Elems(st.systemModules)
  {
  }

  /** Parsing the same lines again for the same node, from fresh node
      lists, changes nothing: the node lists come out the same and no
      global list grows. */
  lemma {:induction false} ParseLinesIdempotent(st: State, lines: seq<string>)
    ensures var r := ParseLines(Acc(st, NoBuckets), lines);
            ParseLines(Acc(r.st, NoBuckets), lines) == r
  {
    var r := ParseLines(Acc(st, NoBuckets), lines);
    var sys := st.systemModules;
    var auto := st.automaticModules;
    var names := Names(lines);
    InsertAllIdempotent(st.warnings, WarningLines(lines));
    InsertAllIdempotent(st.errors, ErrorLines(lines));
    InsertAllIdempotent(st.allModules, names);
    InsertAllIdempotent(st.linkedSystemModules, InBucket(names, sys, auto, SystemDep));
    InsertAllIdempotent(st.linkedModules, InBucket(names, sys, auto, LinkedDep));
  }
  /** The state already holds every entry a parse of `lines` would add to
      the global lists. */
  ghost predicate Absorbs(st: State, lines: seq<string>)
  {
    var names := Names(lines);
    && Elems(WarningLines(lines)) <= Elems(st.warnings)
    && Elems(ErrorLines(lines)) <= Elems(st.errors)
    && Elems(names) <= Elems(st.allModules)
    && Elems(InBucket(names, st.systemModules, st.automaticModules, SystemDep)) <= Elems(st.linkedSystemModules)
    && Elems(InBucket(names, st.systemModules, st.automaticModules, LinkedDep)) <= Elems(st.linkedModules)
  }

  /** After a parse the state holds everything that parse added. */
  lemma {:induction false} ParsedAbsorbs(acc: Acc, r: Acc, lines: seq<string>)
    requires ParsedFrom(acc, r, lines)
    ensures Absorbs(r.st, lines)
  {
  }

  /** Parsing lines whose entries the state already holds leaves the state
      as it is; only the fresh node lists are filled. */
  lemma {:induction false} ParseLinesAbsorbed(st: State, lines: seq<string>)
    requires Absorbs(st, lines)
    ensures ParseLines(Acc(st, NoBuckets), lines)
            == Acc(st, FreshBuckets(Names(lines), st.systemModules, st.automaticModules))
  {
    var sys := st.systemModules;
    var auto := st.automaticModules;
    var names := Names(lines);
    InsertAllAbsorbs(st.warnings, WarningLines(lines));
    InsertAllAbsorbs(st.errors, ErrorLines(lines));
    InsertAllAbsorbs(st.allModules, names);
    InsertAllAbsorbs(st.linkedSystemModules, InBucket(names, sys, auto, SystemDep));
    InsertAllAbsorbs(st.linkedModules, InBucket(names, sys, auto, LinkedDep));
  }
}

=== FILE: scenarios.dfy ===
/** Worked examples for jar names and files: concrete names run through
    the model, each stating the handler's observable result. */
module NamingScenarios {
  import opened Wrappers
  import opened JavaStrings
  import opened Files
  import opened HandlerState
  import opened JdepsNaming

  /** A versioned jar name loses its version, whatever dashes its stem holds. */
  lemma {:induction false} VersionedNameExample()
    ensures JdepsFileName("foo-core-2.1.3.jar") == Success("foo-core.jdeps")
  {
    var stem, version := "foo-core", "2.1.3.jar";
    assert '-' !in version;
    JdepsFileNameOfVersioned(stem, version);
    assert stem + "-" + version == "foo-core-2.1.3.jar";
    assert stem + Extension == "foo-core.jdeps";
  }

  /** A jar name without a dash has no output file name at all. */
  lemma {:induction false} DashlessNameExample()
    ensures JdepsFileName("guava.jar") == Failure(NameWithoutDash)
  {
    assert '-' !in "guava.jar";
  }

  /** The copy of a jar in the class path directory: the directory, a
      separator, and the jar's file name. */
  lemma {:induction false} ClassPathCopyExample(n: string)
    ensures Child(File("/out/cp"), n) == File("/out/cp/" + n)
  {
    assert "/out/cp" + "/" + n == "/out/cp/" + n;
  }

  /** The copy's file name is the jar's file name. */
  lemma {:induction false} ClassPathCopyName(n: string)
    requires '/' !in n
    ensures Name(File("/out/cp/" + n)) == n
  {
    ClassPathCopyExample(n);
    NameOfChild(File("/out/cp"), n);
  }
}

/** Worked examples for the jdeps command line. */
module CommandScenarios {
  import opened Wrappers
  import opened JavaStrings
  import opened Files
  import opened HandlerState
  import opened JdepsCommand

  /** Absolute paths are their own canonical paths. */
  function Canon(f: File): Option<string>
  {
    Some(f.path)
  }

  const Cfg := Config("jdeps", Some(File("/out/auto")), Some(File("/out/cp")), Some(File("/out/mods")),
                      true, true, true)

  const ClassPath := [File("/out/cp/a.jar"), File("/out/cp/b.jar")]

  /** The class path argument joins the canonical paths with `:`. */
  lemma {:induction false} ClassPathArgExample()
    ensures ColonSeparatedList(Canon, ClassPath) == Success("/out/cp/a.jar:/out/cp/b.jar")
  {
    var a, b := "/out/cp/a.jar", "/out/cp/b.jar";
    assert ClassPath[1..] == [File(b)] && ClassPath[1..][1..] == [];
    assert AppendPaths(Canon, ClassPath, "") == AppendPaths(Canon, ClassPath[1..], "" + a);
    assert "" + a == a;
    assert AppendPaths(Canon, ClassPath[1..], a) == AppendPaths(Canon, ClassPath[1..][1..], a + ":" + b);
    assert a + ":" + b == "/out/cp/a.jar:/out/cp/b.jar";
  }

  /** The module path puts the modules directory before the automatic one. */
  lemma {:induction false} ModulePathExample()
    ensures ModulePathArgs(Cfg, Canon) == Success(["--module-path", "/out/mods:/out/auto"])
  {
    assert "/out/mods" + ":" + "/out/auto" == "/out/mods:/out/auto";
  }

  /** With two class path jars and both module directories, the command is
      class path, module path, the two fixed switches, then the jar. */
  lemma {:induction false} CommandExample()
    ensures CommandLine(Cfg, Canon, ClassPath, File("/repo/foo-1.0.jar"))
            == Success(["--class-path", "/out/cp/a.jar:/out/cp/b.jar",
                        "--module-path", "/out/mods:/out/auto",
                        "--print-module-deps", "--ignore-missing-deps", "/repo/foo-1.0.jar"])
  {
    ClassPathArgExample();
    ModulePathExample();
    var src := "/repo/foo-1.0.jar";
    assert Resolve(Canon, File(src)) == Success(src);
    assert ["--class-path", "/out/cp/a.jar:/out/cp/b.jar"] + ["--module-path", "/out/mods:/out/auto"]
           + ["--print-module-deps", "--ignore-missing-deps", src]
           == ["--class-path", "/out/cp/a.jar:/out/cp/b.jar",
               "--module-path", "/out/mods:/out/auto",
               "--print-module-deps", "--ignore-missing-deps", src];
  }

  /** An unresolvable class path element makes the whole command fail. */
  lemma {:induction false} CommandFailsOnBadPath()
    ensures CommandLine(Cfg, (f: File) => if f.path == "/gone" then None else Some(f.path),
                        [File("/gone")], File("/repo/foo-1.0.jar")) == Failure(PathError)
  {
  }
}

/** Worked examples for the line loop of `generateJdeps`. */
module ParseScenarios {
  import opened Lists
  import opened JavaStrings
  import opened HandlerState
  import opened JdepsParser

  /** The tails of the output `w`, `d`, `w`. */
  lemma {:induction false} SampleTails(w: string, d: string)
    ensures [w, d, w][1..] == [d, w] && [d, w][1..] == [w] && [w][1..] == []
  {
  }

  /** Routing of the output `w`, `d`, `w` (a warning, one data line naming
      `s` and `a`, and the same warning again): its warning lines. */
  lemma {:induction false} SampleWarnings(w: string, d: string)
    requires IsWarning(w) && IsData(d)
    ensures WarningLines([w, d, w]) == [w, w]
  {
    SampleTails(w, d);
    assert WarningLines([w]) == [w];
    assert WarningLines([d, w]) == [w];
  }

  /** The same output has no error lines. */
  lemma {:induction false} SampleErrors(w: string, d: string)
    requires IsWarning(w) && IsData(d)
    ensures ErrorLines([w, d, w]) == []
  {
    SampleTails(w, d);
    assert ErrorLines([w]) == [];
    assert ErrorLines([d, w]) == [];
  }

  /** The names of the same output are those of its one data line. */
  lemma {:induction false} SampleNames(w: string, d: string, s: string, a: string)
    requires IsWarning(w) && IsData(d) && Split(d, ',') == [s, a]
    ensures Names([w, d, w]) == [s, a]
  {
    SampleTails(w, d);
    assert Names([w]) == [];
    assert Names([d, w]) == [s, a] + [];
  }

  /** The lines of such an output as jdeps prints them. */
  lemma {:induction false} SampleLines()
    ensures IsWarning("Warning: split package")
    ensures IsData("java.base,app")
    ensures Split("java.base,app", ',') == ["java.base", "app"]
  {
    var w := "Warning: split package";
    assert w[..|WarningMarker|] == WarningMarker;
    var d := "java.base,app";
    assert d[0] != WarningMarker[0] && d[0] != ErrorMarker[0];
    SplitJoin(["java.base", "app"], ',');
    assert Join(["java.base", "app"], ',') == d;
  }

  /** A system module `s` and another module `a`, in the three buckets. */
  lemma {:induction false} SampleBuckets(s: string, a: string)
    requires s != a
    ensures InBucket([s, a], [s], [], SystemDep) == [s]
    ensures InBucket([s, a], [s], [], AutomaticDep) == []
    ensures InBucket([s, a], [s], [], LinkedDep) == [a]
  {
    var e: seq<string> := [];
    assert [s, a][1..] == [a] && [s, a][1..][1..] == e;
    assert BucketOf(s, [s], []) == SystemDep;
    assert BucketOf(a, [s], []) == LinkedDep;
    forall k | k in {SystemDep, AutomaticDep, LinkedDep}
      ensures InBucket([s, a], [s], [], k)
              == (if k == SystemDep then [s] else []) + InBucket([a], [s], [], k)
      ensures InBucket([a], [s], [], k) == (if k == LinkedDep then [a] else []) + InBucket(e, [s], [], k)
    {
    }
  }

  /** The repeated warning collapses. */
  lemma {:induction false} RepeatedInsert(w: string)
    ensures InsertAll([], [w, w]) == [w]
  {
    var e: seq<string> := [];
    InsertAllConcat(e, [w], [w]);
    assert [w] + [w] == [w, w];
    InsertAllFresh(e, [w]);
    InsertAllAbsorbs([w], [w]);
  }

  /** Distinct names are kept in order. */
  lemma {:induction false} DistinctInserts(s: string, a: string)
    requires s != a
    ensures InsertAll([], [s, a]) == [s, a]
    ensures InsertAll([], [s]) == [s] && InsertAll([], [a]) == [a]
  {
    var e: seq<string> := [];
    assert NoDup([s, a]);
    InsertAllFresh(e, [s, a]);
    InsertAllFresh(e, [s]);
    InsertAllFresh(e, [a]);
  }

  /** Parsing that output on a fresh handler whose only system module is
      `s`: the repeated warning is kept once, `s` goes to the system
      lists and `a` to the linked ones. */
  lemma {:induction false} ParseSample(w: string, d: string, s: string, a: string)
    requires IsWarning(w) && IsData(d) && Split(d, ',') == [s, a] && s != a
    ensures var r := ParseLines(Acc(Initial([s]), NoBuckets), [w, d, w]);
            && r.st.warnings == [w]
            && r.st.errors == []
            && r.st.allModules == [s, a]
            && r.st.linkedSystemModules == [s]
            && r.st.linkedModules == [a]
            && r.b == Buckets([s, a], [], [a], [s])
  {
    SampleWarnings(w, d);
    SampleErrors(w, d);
    SampleNames(w, d, s, a);
    SampleBuckets(s, a);
    RepeatedInsert(w);
    DistinctInserts(s, a);
  }

  /** The same name is an automatic dependency once its jar is registered
      as automatic, and a linked module before that: the bucket depends on
      the order in which jars are visited. */
  lemma {:induction false} BucketDependsOnOrder()
    ensures var early := ParseLines(Acc(Initial([]), NoBuckets), ["foo.core"]);
            var st := Initial([]).(automaticModules := ["foo.core"]);
            var late := ParseLines(Acc(st, NoBuckets), ["foo.core"]);
            && early.b.linkedDeps == ["foo.core"] && early.b.automaticDeps == []
            && late.b.automaticDeps == ["foo.core"] && late.b.linkedDeps == []
            && "foo.core" in early.st.linkedModules && "foo.core" !in late.st.linkedModules
  {
    assert ',' !in "foo.core";
    assert !StartsWith("foo.core", WarningMarker) && !StartsWith("foo.core", ErrorMarker);
  }
}

/** Worked examples for the two handlers. */
module HandlerScenarios {
  import opened Wrappers
  import opened Files
  import opened HandlerState
  import opened Classifier

  /** A jar whose descriptor says automatic but whose manifest names no
      module is handled as a class path jar. */
  lemma {:induction false} ManifestDowngrade()
    ensures NonModKind(Artifact("g:a:jar:1.0", File("/repo/a-1.0.jar"), Some(Descriptor("a", true)),
                                Manifest(false), true)) == Success(ClassPathJar)
    ensures NonModKind(Artifact("g:a:jar:1.0", File("/repo/a-1.0.jar"), Some(Descriptor("a", true)),
                                NoManifest, true)) == Success(ClassPathJar)
  {
  }
}

=== FILE: wrappers.dfy ===
/** Option and Result, the failure-compatible carriers used for the
    handler's fallible steps (canonical paths, file naming). */
module Wrappers {

  datatype Option<+T> = None | Some(value: T)

  /** `Failure` stands for a Java exception that unwinds the current call. */
  datatype Result<+T, +E> = Success(value: T) | Failure(error: E) {

    predicate IsFailure() {
      Failure?
    }

    function PropagateFailure<U>(): Result<U, E>
      requires Failure?
    {
      Failure(error)
    }

    function Extract(): T
      requires Success?
    {
      value
    }
  }
}
